=== FILE: README.md ===
# Caregiver shift tracker: a Dafny model of the schedule core

This project models the core of a caregiver shift-tracking service written in
Go. Caregivers have **schedules**, which are planned visits to a client. Each
schedule has a shift time and a status, and it holds a list of **tasks**. A
caregiver clocks in to a visit and clocks out of it, recording coordinates
each time. The caregiver can also cancel a clock-in.

The service answers several list queries: all of a caregiver's schedules,
today's, the upcoming ones, the ones completed today, and the missed ones.
The missed query also *reconciles*: each overdue schedule it finds is marked
`missed` in the store.

The project models:

- **The schedule service**: create, look up, the three visit transitions, the
  list queries, and the missed-schedule reconcile with its display conversion
  into the caller's time zone. Module `Scheduler`, file `scheduler.dfy`.
- **The HTTP handlers in front of it**: create, detail, clock-in, clock-out
  and cancel clock-in. Each one runs a fixed sequence of checks:
  authentication, path id, lookup, ownership, body, then coordinate range.
  The first failing check answers with its status code and leaves the store
  untouched. Module `Handlers`, file `handlers.dfy`.
- **The task service**: insert, assign a batch inside one transaction,
  delete, save (upsert), find a task's schedule, and overwrite a task's
  status. Module `TaskService`, file `tasks.dfy`.
- **The user service**: registration with its email-uniqueness rule, and
  login, which gives one error for every credential failure. Module
  `UserService`, file `users.dfy`.
- **The request-header helpers**: the caller's user id from the bearer
  token, and the caller's time zone. Module `Api`, file `api.dfy`.
- **The records and their column rules**: statuses, defaults and enums.
  Module `Models`, file `models.dfy`.
- **The store**: two tables keyed by primary key, and the scans the queries
  are built from. Module `Store`, file `store.dfy`.
- **Supporting modules**:
  - `Collation`: text equality as the database's case-insensitive collation
    decides it, used by the email lookup, the unique indexes and the enum
    columns.
  - `Ids`: unsigned 64-bit keys, the Go `uint(int)` conversion and
    auto-increment.
  - `Instants`: whole-second Unix instants tagged with a zone, and the 24-hour day.
  - `Decimal`: `strconv.Atoi`, as used to parse path ids.
  - `Wrappers`: `Option` and `Result`.

How the environment is represented:

- **Store.** The store is a value `Db(schedules, tasks)`. Each table is a map
  from primary key to row.
- **Query order.** A query returns rows in ascending key order, with their
  tasks attached in ascending key order. The SQL has no `ORDER BY`, so this
  is the order a primary-key scan yields; it is an assumption of the model.
- **Instants read back in UTC.** A `datetime` column keeps no zone, and the
  connection parses every one back as UTC (`loc=UTC` at
  `database/DBConnection.go:24`). A row read from the store shows each
  instant in UTC, whatever zone it was written in.
- **Statement outcomes.** Whether a statement succeeds is chosen by the
  environment. It is passed in as a boolean (`ok`, `writeOk`, `createOk`,
  `lookupOk`, `commitOk`, `taskOk`, `scheduleOk`, `queryOk`). For a loop it
  is a sequence of booleans, one per statement.
- **Strict mode.** The store is assumed to run in MySQL's strict SQL mode,
  its default: a value that selects no member of an enum column is refused
  with an error instead of being stored as the empty error value `''`. A
  string that matches no member but is a run of digits is read as a
  member's 1-based position.
- **Clock.** The clock is a parameter `now`, in Unix seconds.
- **Token verifier.** It is a function from token to optional user id.
- **Zone database.** It is a function from zone name to optional zone.
- **Password hash comparison.** It is a predicate `matches(hash, password)`.

## Model

| member | source | states |
|---|---|---|
| Ids.AsUint | controller/scheduler.go:130 | Go's `uint(id)` keeps a non-negative 64-bit value and adds 2^64 to a negative one, so the result is congruent to the input modulo 2^64 |
| Collation.FoldedExactlyWhenFixed | models/user.go:17-18 | the folded form of a string has no capitals, a string is its own folded form exactly when it has none, and folding twice is folding once |
| Collation.SameTextPointwise | models/user.go:17-18 | two strings collate equal exactly when they have the same length and agree at every position up to letter case |
| Ids.NextId | models/schedule.go:17 | an auto-increment key is positive, absent from the table and above every existing key; none is available only when the largest 64-bit key is taken |
| Instants.TruncateDay | service/scheduler.go:23-24 | today's window starts at a multiple of 86400 seconds, at or before `now` and less than a day before it: UTC midnight, whatever zone `now` is shown in |
| Instants.TruncateDayUnique | service/scheduler.go:23 | that start is the only multiple of a day in that position |
| Instants.NextMidnightInTwoWindows | service/scheduler.go:24-28 | because `BETWEEN` includes both ends, the next midnight belongs to today's window and to tomorrow's |
| Models.ParseStatus | models/schedule.go:9-14 | a parsed status name prints back as the same text |
| Models.StatusNameRoundTrip | models/schedule.go:9-14 | every status's name parses back to that status |
| Models.MissedIsUndeclared | models/schedule.go:9-22 | the four declared constants and the column's enum admit the same statuses; `missed` is in neither; the default `scheduled` is among them |
| Models.EnumStatus | models/schedule.go:22 | assigning a name to the status column stores the enum member the name equals up to letter case or, failing that, the member at the 1-based position a run of digits gives; that is always a declared status, and a name that selects no member is refused |
| Models.EnumStatusByPosition | models/schedule.go:22 | a run of digits, leading zeros allowed, selects the status declared at that position from 1 to 4 and is refused for 0 or a larger number |
| Models.EnumStatusIgnoresCase | models/schedule.go:22 | every capitalisation of a declared status's name selects that status |
| Models.ParseTaskStatus | models/tasks.go:9-18 | only `completed` and `not_completed` are task statuses, and each parses to the status whose name it is |
| Models.EnumTaskStatus | models/tasks.go:18 | assigning a name to the task status column stores `completed` or `not_completed` when the name equals one of them up to letter case, or the member at position 1 or 2 when the name is a run of digits with that value, and is refused otherwise |
| Models.EnumTaskStatusByPosition | models/tasks.go:18 | a run of digits selects `completed` for 1 and `not_completed` for 2, and is refused for any other value |
| Models.QuotedPositions | models/schedule.go:22 | a quoted `2` stores `in_progress` and `0` or `5` is refused; for tasks a quoted `1` stores `completed` and `3` is refused |
| Models.EnumTaskStatusIgnoresCase | models/tasks.go:18 | every capitalisation of a task status's name selects that status |
| Store.ReadBack | database/DBConnection.go:24 | a schedule row reads back with the same instants, each shown in UTC (the connection's `loc=UTC`), null instants staying null, and no other column changed |
| Store.TaskRow | database/DBConnection.go:24 | a task row reads back with its key as id and the same completion instant shown in UTC, and no other column changed |
| Store.TasksOf | service/scheduler.go:18 | the preloaded task list of a schedule holds exactly the tasks naming that schedule, each once, in ascending id order, each as read back |
| Store.LoadedIsUtc | database/DBConnection.go:24 | every row a query returns shows all its instants, its tasks' completion instants included, in UTC |
| Store.Scan | service/scheduler.go:16-20 | a `WHERE` scan returns exactly the rows satisfying the filter, each once, in ascending key order, with tasks attached |
| Scheduler.InitialStatus | models/schedule.go:22 | an absent status takes the default `scheduled`; a given one is stored as the enum member it selects (by name up to letter case, or by the position a run of digits gives), and refused when it selects none |
| Scheduler.QuotedPositionIsStored | models/schedule.go:22 | a quoted `3` in a create request is stored as `completed` |
| Scheduler.InitialStatusIgnoresCase | models/schedule.go:22 | `Completed` in a request is stored as `completed` |
| Scheduler.MissedRefusedInAnyCase | models/schedule.go:22 | `Missed` is refused, since no enum member equals it in any case and it is not a number |
| Scheduler.CreateSchedule | service/scheduler.go:12-14 | an insert fails exactly when the status selects no enum member or keys are exhausted; otherwise it adds one row under a fresh key carrying every column of the request, coordinates included, with the status the request's status selects, and changes no other row and no task |
| Scheduler.CreatedScheduleIsFound | service/scheduler.go:12-37 | the lookup by the new key finds the created row with the request's columns, its instants being the request's instants shown in UTC, and with no tasks when every stored task names an existing schedule |
| Scheduler.GetScheduleByID | service/scheduler.go:33-37 | the lookup succeeds exactly when the statement goes through and the key exists, and then returns that row with its tasks, every instant in UTC; a missing row is not-found and a failed statement is a store fault |
| Scheduler.StartVisit | service/scheduler.go:39-49 | clock-in sets exactly the start instant to now, the start coordinates and `in_progress`, whatever the prior status; every other field and row is kept; an unknown id changes nothing |
| Scheduler.EndVisit | service/scheduler.go:51-61 | clock-out sets exactly the end instant, the end coordinates and `completed`, whatever the prior status; nothing else changes |
| Scheduler.CancelStartVisit | service/scheduler.go:145-154 | cancel nulls the start instant and start coordinates and sets `scheduled` unconditionally; the end fields and every other row are kept |
| Scheduler.CancelAfterClockOutReopens | service/scheduler.go:145-154 | cancelling after a clock-out gives a `scheduled` row with no start that still carries the clock-out instant |
| Scheduler.ClockInAfterClockOut | service/scheduler.go:39-61 | clocking in after a clock-out gives `in_progress` with the earlier clock-out instant still set |
| Scheduler.CancelUndoesClockIn | service/scheduler.go:145-154 | on a row never clocked in, cancel restores exactly the store before clock-in |
| Scheduler.GetAllSchedules | service/scheduler.go:16-20 | the result holds exactly the caller's schedules, each once, in key order, tasks attached |
| Scheduler.GetTodaySchedules | service/scheduler.go:22-31 | the result holds exactly the caller's schedules whose shift lies in [UTC midnight, next UTC midnight], both ends included |
| Scheduler.GetUpcomingSchedules | service/scheduler.go:63-73 | the result holds exactly the caller's `scheduled` schedules whose shift is at or after now |
| Scheduler.GetTodayCompletedSchedules | service/scheduler.go:135-143 | the result holds exactly the caller's `completed` schedules in today's inclusive UTC window |
| Scheduler.CompletedTodayIgnoresZone | service/scheduler.go:135 | the location argument does not affect the completed-today result |
| Scheduler.CompletedTodayWithinToday | service/scheduler.go:136-141 | every completed-today schedule is also among today's schedules |
| Scheduler.MissedKeys | service/scheduler.go:81-86 | the missed query selects exactly the keys of the caller's rows with a non-null end before now and status `scheduled` or `in_progress`, ascending |
| Scheduler.MissedCandidates | service/scheduler.go:79-86 | the missed query returns exactly those rows, each once, in key order, tasks attached |
| Scheduler.Overdue | service/scheduler.go:81-85 | a row is a missed candidate exactly when it is the caller's, has a non-null end before now, and is `scheduled` or `in_progress` |
| Scheduler.NeverClockedOutNeverMissed | service/scheduler.go:81 | a row with a null end instant is never a missed candidate |
| Scheduler.MarkMissedMarks | service/scheduler.go:100 | after marking, a stored row is `missed` exactly when it was marked or already `missed`; no row appears or disappears, no other column changes, and no task changes |
| Scheduler.SucceededStep | service/scheduler.go:96-106 | the rows marked after one more loop step are those marked before, plus this candidate when its write was issued and succeeded |
| Scheduler.MarkOneMore | service/scheduler.go:100-103 | one more successful status write marks exactly one more row `missed` |
| Scheduler.NoneMissedYet | service/scheduler.go:99 | no candidate is `missed` yet, so every write is issued and the marked rows are exactly those whose write succeeded |
| Scheduler.Reconcile | service/scheduler.go:95-108 | the loop keeps every candidate, in order, each with status `missed`, because the ORM sets the copy's status before the write runs; the store holds `missed` for exactly the successful writes |
| Scheduler.ToZone | service/scheduler.go:110-128 | the display copy shows the same instants in the caller's zone: shift, non-null start and end, every non-null task completion; null instants stay null; no other field differs |
| Scheduler.ToZoneRoundTrip | service/scheduler.go:110-128 | converting a UTC record to any zone and back to UTC gives the record again, so no instant is lost |
| Scheduler.QueriedRowRoundTrips | service/scheduler.go:110-128 | every row a query returns can be shown in any zone and converted back to UTC without loss |
| Scheduler.DisplayAll | service/scheduler.go:110-129 | the display list has the same length and order as the input, each element converted |
| Scheduler.GetMissedSchedules | service/scheduler.go:75-133 | a failed query returns an error and writes nothing; otherwise every candidate comes back in query order as a `missed` copy shown in the caller's zone, and the store differs only in the statuses of rows whose write succeeded |
| Scheduler.MarkingEmptiesQuery | service/scheduler.go:81-86 | once every selected row is `missed`, the query selects nothing |
| Scheduler.SecondReconcileIsEmpty | service/scheduler.go:81-103 | after a reconcile whose writes all succeeded, a second one at the same instant finds no candidates and writes nothing |
| TaskService.InsertStatus | models/tasks.go:18 | an absent task status takes the default `not_completed`; a given one is stored as the enum member it selects, by name up to letter case or by position, and refused when it selects none |
| TaskService.CreateTask | service/tasks.go:11-13 | an insert succeeds exactly when the statement goes through, the status is in the enum, the schedule exists and a key is free; it reports the first of these that fails; on success it adds one row under a key above all others, carrying the request's columns, and changes nothing else |
| TaskService.CreateBatch | service/tasks.go:22-30 | a batch goes through only if every entry's insert was accepted, and then returns one key per entry |
| TaskService.AddStep | service/tasks.go:23-27 | an insert before a successful remainder of the batch extends that remainder's additions by its own row |
| TaskService.BatchAdds | service/tasks.go:22-30 | a batch that goes through adds exactly one row per entry, under increasing fresh keys, each bound to the schedule, and changes no schedule and no earlier task |
| TaskService.BatchIfAccepted | service/tasks.go:22-30 | a batch whose every entry is accepted goes through unless the keys run out |
| TaskService.BatchFailsAtFirstRejection | service/tasks.go:25-27 | a failed batch, keys permitting, reports the error of its first rejected entry, and every entry before it was accepted |
| TaskService.AssignTasksToSchedule | service/tasks.go:16-31 | a failed schedule lookup is a store fault and an unknown schedule is not-found, and neither creates anything; any rejected entry, or a failed commit, fails the whole batch with no store; on success every entry is added in order, bound to the given schedule whatever schedule id it carried |
| TaskService.AssignNothing | service/tasks.go:22-30 | assigning an empty batch to an existing schedule succeeds and leaves the store unchanged |
| TaskService.DeleteTask | service/tasks.go:34-36 | a failing statement reports the store's error and changes nothing; otherwise delete removes only the row with that key, a missing key being no error, and keeps every other task and every schedule |
| TaskService.DeleteUndoesCreate | service/tasks.go:34-36 | deleting the row an insert created gives back the store before the insert |
| TaskService.UpdateTask | service/tasks.go:39-41 | saving with key 0 is an insert; with any other key it writes every column under that key: on an existing row an empty status is written as given and refused, while on a key with no row the save falls back to an insert and an empty status takes the default `not_completed` |
| TaskService.SaveIsIdempotent | service/tasks.go:39-41 | saving the same task twice under a non-zero key is the same as saving it once when its status is not empty; with an empty status the first save must have inserted the row and the second is refused |
| TaskService.GetScheduleByTaskID | service/tasks.go:44-54 | the lookup succeeds exactly when both statements go through, the task exists and it names an existing schedule, and returns that schedule as a query reads it, without preloaded tasks; a failed statement is a store fault and a missing row is not-found |
| TaskService.EveryTaskHasSchedule | service/tasks.go:44-54 | in a store where the foreign key holds, every task's schedule lookup succeeds |
| TaskService.AssignedTasksLeadBack | service/tasks.go:44-54 | each task of a successful assignment leads back to the schedule it was assigned to, as the schedule lookup reads it without its tasks |
| TaskService.UpdateTaskStatus | service/tasks.go:57-65 | a failing statement reports the store's error; otherwise the update overwrites exactly the status, reason and completion instant, with no check that they agree; a missing row is no error and changes nothing; a status that selects no enum member is refused, and the stored status is the member it selects |
| TaskService.LastStatusWins | service/tasks.go:57-65 | a second status update completely overrides the first |
| TaskService.DeleteScheduleCascade | models/schedule.go:30 | removing a schedule removes exactly the tasks naming it, and every other row is kept |
| TaskService.InsertsKeepConsistency | models/schedule.go:30 | an insert and a save keep every task pointing at an existing schedule |
| TaskService.AssignKeepsConsistency | models/schedule.go:30 | a successful batch assignment keeps every task pointing at an existing schedule |
| TaskService.RemovalsKeepConsistency | models/schedule.go:30 | a status update, a task delete and the schedule cascade keep every task pointing at an existing schedule |
| UserService.FirstWithEmail | service/users.go:13 | the email lookup finds the row with the least key whose email equals the given one up to letter case, or nothing when no row's does |
| UserService.RegisterUser | service/users.go:11-22 | a found email gives the duplicated-key error and no insert; otherwise the insert succeeds exactly when the statement goes through, no stored email or mobile equals the new one up to letter case and a key is free, storing the request with role 3 when none is given and returning the new key |
| UserService.RegisterKeepsContactsUnique | models/user.go:17-18 | registration keeps every email and every mobile number unique up to letter case |
| UserService.MobileIsNotLookedUp | service/users.go:13-17 | a taken mobile with a fresh email gets past the lookup and fails at the insert with the driver's error, not the duplicated-key error |
| UserService.RegisterIgnoresEmailCase | service/users.go:11-22 | whether and how registration fails does not depend on the letter case of the email |
| UserService.LoginUser | service/users.go:24-38 | login succeeds exactly when the lookup works, the email is found and the hash matches, and then returns that user; a lookup failure is passed on; every other failure is the one invalid-credentials error |
| UserService.LoginIgnoresEmailCase | service/users.go:24-38 | login gives the same result for two emails that differ only in letter case |
| UserService.CaseVariantEmail | service/users.go:11-38 | with `alice@x.com` stored, registering `Alice@x.com` is the duplicated-key error, and logging in as `Alice@x.com` returns the stored user |
| UserService.CredentialFailuresCollapse | service/users.go:26-35 | an unknown email and a wrong password give the same result |
| UserService.LoginAfterRegister | service/users.go:24-38 | a user just registered can log in with a password the stored hash matches, and gets back the stored row |
| Decimal.Atoi | controller/scheduler.go:125 | a parsed path id is within the 64-bit range and came from an optional sign followed by at least one digit and nothing else; the sign fixes the result's sign |
| Decimal.AtoiItoa | controller/scheduler.go:125 | every 64-bit integer, printed in decimal, parses back to itself |
| Decimal.AtoiDigits | controller/scheduler.go:125 | every run of digits, leading zeros allowed, parses to its value when that is at most 2^63-1 and is refused otherwise |
| Decimal.AtoiPlus | controller/scheduler.go:125 | a `+` in front of a run of digits parses as the digits alone |
| Decimal.AtoiMinus | controller/scheduler.go:125 | a `-` in front of a run of digits parses to the negated value when that is at least -2^63 and is refused otherwise |
| Decimal.SignsAndZeros | controller/scheduler.go:125 | a leading `+` and leading zeros are accepted, and `-0` is zero |
| Decimal.NotNumbers | controller/scheduler.go:125-129 | an empty id, a lone sign, a letter or a space is not a number |
| Api.TrimPrefix | controller/api.go:26 | the prefix followed by the result is the input when the prefix is there; otherwise the input is returned |
| Api.TrimPrefixAfterConcat | controller/api.go:26 | stripping a prefix that was put in front gives back the rest |
| Api.GetUserIDFromJWT | controller/api.go:21-32 | a header without the `Bearer ` prefix is refused; otherwise the token after the prefix is verified, and the result is the verifier's user id or an invalid-token error |
| Api.BadHeaderNeedsNoToken | controller/api.go:22-25 | a header without the prefix is refused whatever the verifier would say |
| Api.BearerTokenReachesVerifier | controller/api.go:26-31 | `Bearer ` plus token hands exactly that token to the verifier and returns its answer |
| Api.LoadLocation | controller/api.go:40 | the empty name and `UTC` are UTC without consulting the zone database |
| Api.GetUserTimeZone | controller/api.go:34-45 | an empty header is UTC; an unknown zone falls back to UTC; a known one is used |
| Api.EmptyZoneHeaderIsUtc | controller/api.go:35-39 | an absent header and an explicit `UTC` give the same zone |
| Handlers.BindLocation | models/schedule.go:33-36 | a body binds exactly when both coordinates are present and non-zero, since the `required` rule treats zero as missing |
| Handlers.InRange | controller/scheduler.go:183 | a coordinate pair passes exactly when the latitude lies in [-90, 90] and the longitude in [-180, 180], both bounds included |
| Handlers.RangeBoundsInclusive | controller/scheduler.go:183 | the poles and the date line pass the range check, and half a degree beyond them does not |
| Handlers.Authorize | controller/scheduler.go:157-177 | the checks run in order: bad token 401, non-integer id 400, unknown schedule or failed lookup 404, someone else's schedule 403; only a caller owning an existing schedule passes, and gets that schedule |
| Handlers.BadIdNeedsNoLookup | controller/scheduler.go:163-168 | a non-integer id gives 400 whatever the store holds and whether or not a lookup would succeed |
| Handlers.UnknownBeforeOwnership | controller/scheduler.go:169-173 | an unknown id, or a failed lookup, gives 404 whoever the caller is |
| Handlers.GetScheduleDetails | controller/scheduler.go:118-140 | the detail is 200 with the schedule and its tasks exactly when the caller passes the checks; otherwise it is the first failing check's code, with no body |
| Handlers.StartVisitHandler | controller/scheduler.go:157-193 | after the checks, a body that does not bind or lies off the globe (bounds inclusive) is 400, and a failing write is 500; every answer other than 200 leaves the store unchanged; 200 means the clock-in was applied to the caller's schedule |
| Handlers.EndVisitHandler | controller/scheduler.go:210-246 | the same checks and codes as clock-in; 200 means the clock-out was applied |
| Handlers.CancelStartVisitHandler | controller/scheduler.go:334-366 | cancel takes no body and checks no status: it is 200 exactly when the caller passes the checks and the write succeeds, and any other answer leaves the store unchanged |
| Handlers.ForbiddenBeforeBody | controller/scheduler.go:174-177 | someone else's schedule gets 403 from detail, clock-in, clock-out and cancel, whatever body was sent, with the store unchanged |
| Handlers.StartVisitAnyState | controller/scheduler.go:157-193 | clock-in on an owned schedule with valid coordinates succeeds whatever its status and tasks, and leaves it `in_progress` |
| Handlers.ZeroCoordinateRefused | models/schedule.go:34-35 | a latitude of exactly zero is refused with 400 although it lies on the globe |
| Handlers.CreateScheduleHandler | controller/scheduler.go:26-55 | a bad token is 401; a body that does not bind, or a start strictly after the end, is 400; the insert is 201 exactly when it succeeds and 500 otherwise; only 201 changes the store |
| Handlers.StartsAfterEnd | controller/scheduler.go:39 | a shift is refused exactly when both bounds are present and the start is strictly later than the end |
| Handlers.EqualOrOpenShiftAccepted | controller/scheduler.go:39-42 | equal start and end times, or a missing bound, pass the order check |
| Handlers.CreatorIsNotChecked | controller/scheduler.go:26-32 | the caller's identity plays no part in creating a schedule: any two verified callers get the same answer |

## Left out

- I/O is not modelled: logging, the JSON response bodies and messages, and the HTTP plumbing of gin. A handler's answer is its status code, plus the schedule for the detail handler.
- Process wiring is not part of this model: the router, the database and Redis connections, configuration and e-mail.
- The signing and verification of tokens is not modelled. The verifier is an uninterpreted function from token to optional user id.
- `time.LoadLocation`'s zone database and wall-clock offsets are not modelled. A zone is an opaque tag, and converting an instant changes only its tag.
- The bcrypt comparison is an uninterpreted predicate.
- Instants are whole seconds. Go's `time.Time` carries nanoseconds, so within one second the model cannot order two instants: a start 0.4 s after its end is refused by the source's `After` test and accepted by `Handlers.CreateScheduleHandler`, and the `shift_time >= now` and `end_time < now` tests can differ inside the boundary second.
- Coordinates are reals. Float64 rounding and the `decimal(10,8)` column precision are not modelled; only range comparisons matter.
- Soft delete is modelled as removal. The ORM's soft delete sets `deleted_at` and hides the row from later queries; removal reproduces what later queries see, but not that the key stays taken (see `Ids.NextId` below).
  - No code in the core deletes a schedule. `TaskService.DeleteScheduleCascade` models the foreign key's `ON DELETE CASCADE` rule for a hard delete. A soft delete of a schedule would not fire it.
- The validation tags (`validate:"required"`, `oneof`, `min`, `email`) are not enforced by the schedule and task handlers' JSON binding, so the model does not enforce them. Only the `binding:"required"` tags of the location body are enforced. The user handlers do run the validator (`controller/users.go:35-36` and `:148-149`), but they are not part of this model.
  - As a result, a required string field may be empty, and a role outside 1–3 is stored as given.
- Record fields the core never reads are left out: `created_at`, `updated_at` and `deleted_at`. Required and optional columns appear as plain fields and `Option` fields of the datatypes.
- The handlers for the list queries (all, today, upcoming, missed, completed-today) are not modelled. Each only authenticates and then calls its service, which is modelled. The user and task handlers around registration, login and task management are not part of this model either.
- Row order: the queries have no `ORDER BY`. The model returns rows in ascending key order and fixes that as its assumption.
- A failing list query other than the missed one is not modelled. Those queries are total functions of the store.
- Scheduler.CreateSchedule: always inserts under the next auto-increment key. An explicit non-zero id in the request body is not modelled. Neither is a `tasks` array in the body, which the ORM would insert together with the schedule, failing the whole create if one of them is refused.
- Handlers.CreateScheduleHandler: as above, it ignores an id in the body.
- Scheduler.Reconcile: a write that fails before its statement is built, such as one whose transaction cannot begin, would leave the copy's status as it was. The model gives every failed write the outcome of one that fails when it runs, which is the outcome the enum refusal of `missed` has.
- Scheduler.GetMissedSchedules: whether each `missed` write succeeds is the environment's choice. The model does not derive it from the column's enum, which lacks `missed` and would refuse the write in a strict store. In a store that is not strict the write goes through but stores the enum's empty error value `''`, not `missed`; the model stores `Missed` for a successful write, a value the column can never hold. The same applies to `Scheduler.MarkMissed`, `Scheduler.MarkOneMore` and `Scheduler.SecondReconcileIsEmpty`.
- UserService.LoginUser: a failing lookup is passed on as the single `StoreFault` error rather than the driver's own error value.
- UserService.RegisterUser: the insert's failure is one environment flag. Which of several violated constraints the driver names first is not modelled.
- TaskService.CreateBatch: its own contract gives the number of keys and that every entry was accepted. `BatchAdds`, `BatchIfAccepted` and `BatchFailsAtFirstRejection` state the rest.
- Ids.NextId: hands out one above the largest key present, so after the top row is removed its key is reused. The database's auto-increment counter never hands a key out twice: a soft-deleted row keeps its key, and keys taken by a rolled-back batch stay used.
- TaskService.CreateTask: always inserts under the next auto-increment key. The handlers bind the whole task record, whose embedded `id` field a JSON body may set; the source then inserts under that key. This is not modelled.
- TaskService.AssignTasksToSchedule: as for `CreateTask`, an `id` carried by a batch entry is not modelled.
- TaskService.BatchAdds: its increasing fresh keys hold only because body ids are not modelled, and only among the rows present (see `Ids.NextId`).
- UserService.FirstWithEmail: letter case is folded for ASCII letters only. The collation's other equivalences, such as accented letters, letters of other scripts and trailing spaces, are not modelled. The same holds for `UserService.RegisterUser`, `UserService.LoginUser` and `UserService.RegisterKeepsContactsUnique`.
- Scheduler.InitialStatus: the same ASCII-only folding, and likewise for `Models.EnumStatus`, `Models.EnumTaskStatus`, `TaskService.InsertStatus`, `TaskService.UpdateTask` and `TaskService.UpdateTaskStatus`.
- Models.EnumStatus: a quoted number is read as a position only when it is a plain run of ASCII digits. MySQL's conversion of other numeric text, such as a sign, surrounding spaces or a fraction like `2.0`, is not modelled; such a string selects nothing here. The same holds for `Models.EnumTaskStatus`.
- Concurrency between requests is not modelled.

## Notes on the source

These were found while reading the code. The model follows the code as written.

- `service/scheduler.go:99-103` writes `models.SCHEDULE_STATUS_MISSED`. `models/schedule.go:9-14` does not declare that constant, and the column enum at `models/schedule.go:22` has no `missed` value.
  - The model adds `Missed` as a fifth status.
  - `Models.MissedIsUndeclared` states that it is outside the declared set and outside the enum.
  - The reconcile keeps the path where a write fails.
- `controller/scheduler.go:288` and `:312` call the missed and completed-today services with two arguments. The services at `service/scheduler.go:75` and `:135` take a third, the location. The model gives the services their declared three arguments.
- `routes/router.go:31-49` registers no route for the create-schedule, upcoming, missed, completed-today and cancel-start handlers.
- `service/scheduler.go:100-104` sets the copy's status to `missed` only when the write succeeds, and leaves it alone on failure. The ORM's single-column update has already set it before the statement runs, so a row whose write fails is still returned as `missed` while the store keeps its old status. The model follows that behaviour.
- The registration request accepts passwords of six characters or more (`models/user.go:30`). The user record's tag asks for eight (`models/user.go:20`). The model keeps both as constants and enforces neither. The registration handler, which is not part of this model, runs the validator on the request (`controller/users.go:35-36`) and so enforces the six-character minimum.

=== FILE: api.dfy ===
/**
 * The request-header helpers every handler starts with: the caller's user id
 * from the `Authorization` header, and the caller's time zone from the
 * `X-Timezone` header.
 *
 * Token verification (`ExtractJWT`) and the zone database behind
 * `time.LoadLocation` are supplied by the caller as functions: `extract`
 * maps a token to the user id it carries, or `None` when the token does not
 * verify; `load` maps a zone name other than "" and "UTC" to a location, or
 * `None` when the name is unknown.
 */
module Api {
  import opened Wrappers
  import opened Instants

  const BearerPrefix: string := "Bearer "

  predicate HasPrefix(s: string, p: string)
  {
    |p| <= |s| && s[..|p|] == p
  }

  /** `s` without the prefix `p`; `s` itself when it does not start with `p`. */
  function TrimPrefix(s: string, p: string): (r: string)
    ensures HasPrefix(s, p) ==> p + r == s
    ensures !HasPrefix(s, p) ==> r == s
  {
    if HasPrefix(s, p) then s[|p|..] else s
  }

  /** Trimming a prefix that was put in front gives back the rest. */
  lemma TrimPrefixAfterConcat(p: string, t: string)
    ensures HasPrefix(p + t, p)
    ensures TrimPrefix(p + t, p) == t
  {
    assert (p + t)[..|p|] == p;
    assert (p + t)[|p|..] == t;
  }

  datatype AuthError =
    | MissingOrInvalidHeader   // no header, or one not starting with "Bearer "
    | InvalidToken             // the token did not verify

  /**
   * The caller's user id. A header that is empty or lacks the "Bearer "
   * prefix is refused before the token is looked at; otherwise the token is
   * the header without that prefix, and the id is whatever verifying it
   * yields.
   */
  function GetUserIDFromJWT(header: string, extract: string -> Option<int>): (r: Result<int, AuthError>)
    ensures !HasPrefix(header, BearerPrefix) ==> r == Failure(MissingOrInvalidHeader)
    ensures HasPrefix(header, BearerPrefix) ==>
      var token := header[|BearerPrefix|..];
      && BearerPrefix + token == header
      && (r.Success? <==> extract(token).Some?)
      && (r.Success? ==> r.value == extract(token).value)
      && (r.Failure? ==> r.error == InvalidToken)
  {
    if header == "" || !HasPrefix(header, BearerPrefix) then Failure(MissingOrInvalidHeader)
    else
      match extract(TrimPrefix(header, BearerPrefix))
      case None => Failure(InvalidToken)
      case Some(userId) => Success(userId)
  }

  /** A header without the prefix is refused whatever the token verifier would say. */
  lemma BadHeaderNeedsNoToken(header: string, e1: string -> Option<int>, e2: string -> Option<int>)
    requires !HasPrefix(header, BearerPrefix)
    ensures GetUserIDFromJWT(header, e1) == GetUserIDFromJWT(header, e2) == Failure(MissingOrInvalidHeader)
  {
  }

  /** A bearer header carrying token `t` hands exactly `t` to the verifier. */
  lemma {:induction false} BearerTokenReachesVerifier(t: string, extract: string -> Option<int>)
    ensures GetUserIDFromJWT(BearerPrefix + t, extract)
         == (if extract(t).Some? then Success(extract(t).value) else Failure(InvalidToken))
  {
    TrimPrefixAfterConcat(BearerPrefix, t);
  }

  /**
   * `time.LoadLocation`: the empty name and "UTC" are UTC without consulting
   * the zone database; any other name is looked up.
   */
  function LoadLocation(name: string, load: string -> Option<Zone>): (r: Option<Zone>)
    ensures name == "" || name == Utc ==> r == Some(Utc)
  {
    if name == "" || name == Utc then Some(Utc) else load(name)
  }

  /**
   * The caller's time zone: an empty header means "UTC", and a name the zone
   * database does not know falls back to UTC.
   */
  function GetUserTimeZone(header: string, load: string -> Option<Zone>): (r: Zone)
    ensures header == "" || header == Utc ==> r == Utc
    ensures header != "" && header != Utc ==> (load(header).None? ==> r == Utc) && (load(header).Some? ==> r == load(header).value)
  {
    var tz := if header == "" then Utc else header;
    match LoadLocation(tz, load)
    case None => Utc
    case Some(loc) => loc
  }

  /** An absent header and an explicit "UTC" give the same zone. */
  lemma EmptyZoneHeaderIsUtc(load: string -> Option<Zone>)
    ensures GetUserTimeZone("", load) == GetUserTimeZone(Utc, load) == Utc
  {
  }
}

=== FILE: collation.dfy ===
/**
 * Text comparison as the database performs it. The column definitions name
 * no collation, so each text and enum column takes the database's default
 * collation when the tables are created; MySQL's default collations for
 * `utf8mb4` are case-insensitive (the connection's own `utf8mb4_unicode_ci`
 * is one too). So an equality test in a `WHERE` clause, a unique index and an
 * assignment to an enum column all treat two strings that differ only in
 * letter case as the same string.
 *
 * Two strings collate equal here when their folded forms are equal; folding
 * maps each ASCII capital to its small letter and keeps every other
 * character.
 */
module Collation {

  predicate IsCapital(c: char)
  {
    'A' <= c <= 'Z'
  }

  /** The small letter of an ASCII capital; any other character unchanged. */
  function FoldChar(c: char): (r: char)
    ensures !IsCapital(r)
    ensures !IsCapital(c) ==> r == c
    ensures IsCapital(c) ==> r as int - c as int == 'a' as int - 'A' as int
  {
    if IsCapital(c) then (c as int - 'A' as int + 'a' as int) as char else c
  }

  /** The form under which the collation compares a string. */
  function Fold(s: string): (r: string)
    ensures |r| == |s|
    ensures forall i :: 0 <= i < |s| ==> r[i] == FoldChar(s[i])
  {
    seq(|s|, i requires 0 <= i < |s| => FoldChar(s[i]))
  }

  /** The collation's equality. */
  predicate SameText(a: string, b: string)
  {
    Fold(a) == Fold(b)
  }

  /** A string with no ASCII capital. */
  predicate IsFolded(s: string)
  {
    forall i :: 0 <= i < |s| ==> !IsCapital(s[i])
  }

  /**
   * Folding yields a string without capitals, and a string is its own folded
   * form exactly when it has none: folding is idempotent.
   */
  lemma {:induction false} FoldedExactlyWhenFixed(s: string)
    ensures IsFolded(Fold(s))
    ensures Fold(s) == s <==> IsFolded(s)
    ensures Fold(Fold(s)) == Fold(s)
  {
    if IsFolded(s) {
      assert forall i :: 0 <= i < |s| ==> Fold(s)[i] == s[i];
    }
    if Fold(s) == s {
      assert forall i :: 0 <= i < |s| ==> !IsCapital(Fold(s)[i]);
    }
    var f := Fold(s);
    assert forall i :: 0 <= i < |f| ==> Fold(f)[i] == f[i];
  }

  /**
   * Two strings collate equal exactly when they have the same length and
   * agree at every position up to letter case.
   */
  lemma {:induction false} SameTextPointwise(a: string, b: string)
    ensures SameText(a, b) <==> |a| == |b| && forall i :: 0 <= i < |a| ==> FoldChar(a[i]) == FoldChar(b[i])
  {
    if |a| == |b| && forall i :: 0 <= i < |a| ==> FoldChar(a[i]) == FoldChar(b[i]) {
      assert forall i :: 0 <= i < |a| ==> Fold(a)[i] == Fold(b)[i];
    }
    if SameText(a, b) {
      assert |a| == |Fold(a)| == |Fold(b)| == |b|;
      assert forall i :: 0 <= i < |a| ==> FoldChar(a[i]) == Fold(a)[i] == Fold(b)[i] == FoldChar(b[i]);
    }
  }
}

=== FILE: decimal.dfy ===
/**
 * Base-10 integer text, as the handlers parse path ids with the Go
 * standard library's `strconv.Atoi`: an optional `+` or `-` sign followed by
 * at least one ASCII digit, nothing else, and a value within the 64-bit
 * signed range of the platform's `int`.
 */
module Decimal {
  import opened Wrappers

  const Int64Min: int := -0x8000_0000_0000_0000
  const Int64Max: int := 0x7FFF_FFFF_FFFF_FFFF

  predicate IsDigit(c: char)
  {
    '0' <= c <= '9'
  }

  /** A non-empty run of ASCII digits. */
  predicate IsDigits(s: string)
  {
    |s| > 0 && forall i :: 0 <= i < |s| ==> IsDigit(s[i])
  }

  function DigitValue(c: char): nat
    requires IsDigit(c)
  {
    (c - '0') as nat
  }

  function DigitChar(d: nat): (c: char)
    requires d < 10
    ensures IsDigit(c) && DigitValue(c) == d
  {
    ('0' as int + d) as char
  }

  /** The value of a run of digits, most significant first. */
  function DigitsValue(s: string): nat
    requires forall i :: 0 <= i < |s| ==> IsDigit(s[i])
  {
    if s == [] then 0 else DigitsValue(s[..|s| - 1]) * 10 + DigitValue(s[|s| - 1])
  }

  /** The shortest digit run for a natural number. */
  function NatText(n: nat): (s: string)
    ensures IsDigits(s)
    ensures |s| > 1 ==> s[0] != '0'
  {
    if n < 10 then [DigitChar(n)] else NatText(n / 10) + [DigitChar(n % 10)]
  }

  /** The text `strconv.Itoa` gives: a `-` for negative values, then the shortest digit run. */
  function Itoa(n: int): string
  {
    if n < 0 then "-" + NatText(-n) else NatText(n)
  }

  /**
   * The number a path segment denotes, or `None` when `strconv.Atoi`
   * reports an error: an empty string, a lone sign, any character other
   * than a leading sign and digits, or a value outside the 64-bit range.
   */
  function Atoi(s: string): (r: Option<int>)
    ensures r.Some? ==> Int64Min <= r.value <= Int64Max
    ensures r.Some? ==>
      && |s| > 0
      && (IsDigit(s[0]) || (|s| > 1 && (s[0] == '+' || s[0] == '-')))
      && (forall i :: 0 < i < |s| ==> IsDigit(s[i]))
    ensures r.Some? && s[0] == '-' ==> r.value <= 0
    ensures r.Some? && s[0] != '-' ==> r.value >= 0
  {
    if |s| == 0 then None
    else
      var negative := s[0] == '-';
      var digits := if s[0] == '+' || s[0] == '-' then s[1..] else s;
      if !IsDigits(digits) then None
      else
        var v: int := if negative then -(DigitsValue(digits) as int) else DigitsValue(digits);
        if Int64Min <= v <= Int64Max then Some(v) else None
  }

  /** Reading back the digits of a natural number gives the number. */
  lemma {:induction false} NatTextValue(n: nat)
    ensures DigitsValue(NatText(n)) == n
  {
    if n >= 10 {
      NatTextValue(n / 10);
      var s := NatText(n);
      assert s[..|s| - 1] == NatText(n / 10);
    }
  }

  /** Every 64-bit value survives printing and parsing. */
  lemma {:induction false} AtoiItoa(n: int)
    requires Int64Min <= n <= Int64Max
    ensures Atoi(Itoa(n)) == Some(n)
  {
    if n < 0 {
      NatTextValue(-n);
      assert ("-" + NatText(-n))[1..] == NatText(-n);
    } else {
      NatTextValue(n);
    }
  }

  /**
   * A run of digits, leading zeros allowed, denotes its value, and is
   * refused exactly when that value is above the 64-bit range.
   */
  lemma {:induction false} AtoiDigits(d: string)
    requires IsDigits(d)
    ensures Atoi(d) == if DigitsValue(d) <= Int64Max then Some(DigitsValue(d)) else None
  {
    assert IsDigit(d[0]);
  }

  /** A leading `+` in front of a run of digits changes nothing. */
  lemma {:induction false} AtoiPlus(d: string)
    requires IsDigits(d)
    ensures Atoi("+" + d) == Atoi(d)
  {
    assert ("+" + d)[1..] == d;
    AtoiDigits(d);
  }

  /**
   * A leading `-` in front of a run of digits denotes the negated value,
   * refused exactly when that is below the 64-bit range.
   */
  lemma {:induction false} AtoiMinus(d: string)
    requires IsDigits(d)
    ensures Atoi("-" + d) == if -(DigitsValue(d) as int) >= Int64Min then Some(-(DigitsValue(d) as int)) else None
  {
    assert ("-" + d)[1..] == d;
  }

  /** A leading `+` and leading zeros are accepted, and `-0` is zero. */
  lemma SignsAndZeros()
    ensures Atoi("+007") == Some(7) && Atoi("-0") == Some(0)
  {
    assert "+007"[1..] == "007" && "007"[..2] == "00" && "00"[..1] == "0" && "0"[..0] == "";
    assert DigitsValue("007") == 7;
    assert "-0"[1..] == "0";
    assert DigitsValue("0") == 0;
  }

  /** A sign with no digits, or text with a non-digit, is not a number. */
  lemma NotNumbers()
    ensures Atoi("") == None && Atoi("-") == None && Atoi("+") == None
    ensures Atoi("12a") == None && Atoi(" 1") == None
  {
    assert !IsDigit('a') && !IsDigit(' ');
    assert "12a"[2] == 'a';
  }
}

=== FILE: handlers.dfy ===
/**
 * The HTTP handlers in front of the schedule service: creating a schedule,
 * reading one, and the three visit transitions. Each handler runs a fixed
 * sequence of checks (authentication, path id, lookup, ownership, body,
 * coordinate range), answers the first failing check with its status code
 * and leaves the store as it was, and only after every check passes calls
 * the service.
 *
 * The token verifier is the function `extract` (see the `Api` module);
 * whether the schedule lookup and the final service write succeed is chosen
 * by the environment (`lookupOk`, `writeOk`, `createOk`).
 */
module Handlers {
  import opened Wrappers
  import opened Ids
  import opened Instants
  import opened Models
  import opened Store
  import opened Scheduler
  import opened Api
  import opened Decimal

  datatype HttpStatus = Ok | Created | BadRequest | Unauthorized | Forbidden | NotFound | InternalServerError

  function Code(s: HttpStatus): int
  {
    match s
    case Ok => 200
    case Created => 201
    case BadRequest => 400
    case Unauthorized => 401
    case Forbidden => 403
    case NotFound => 404
    case InternalServerError => 500
  }

  /** What a mutating handler answers, with the store it leaves behind. */
  datatype Response = Response(status: HttpStatus, db: Db)

  // ----- Guards ------------------------------------------------------------

  /**
   * Binding a location body. `None` stands for a body that is not a JSON
   * object with two numeric fields; a field that is present but zero is
   * refused as well, because a `required` binding rule treats the zero value
   * as missing.
   */
  function BindLocation(body: Option<VisitLocationRequest>): (r: Option<VisitLocationRequest>)
    ensures r.Some? <==> body.Some? && body.value.latitude != 0.0 && body.value.longitude != 0.0
    ensures r.Some? ==> r == body
  {
    match body
    case None => None
    case Some(req) => if req.latitude == 0.0 || req.longitude == 0.0 then None else body
  }

  /** A coordinate pair on the globe, both bounds inclusive. */
  predicate InRange(req: VisitLocationRequest)
  {
    -90.0 <= req.latitude <= 90.0 && -180.0 <= req.longitude <= 180.0
  }

  /** The poles and the date line are on the globe; half a degree past them is not. */
  lemma RangeBoundsInclusive()
    ensures InRange(VisitLocationRequest(90.0, 180.0)) && InRange(VisitLocationRequest(-90.0, -180.0))
    ensures !InRange(VisitLocationRequest(90.5, 0.0)) && !InRange(VisitLocationRequest(0.0, -180.5))
  {
  }

  /**
   * The checks in front of every single-schedule handler, in order: the
   * caller's token (401), the path id as an integer (400), the schedule
   * under that id (404, also when the lookup itself fails), and the schedule
   * belonging to the caller (403).
   * Ids are compared as the unsigned conversions of the parsed integers.
   * On success the schedule's key and the loaded schedule are returned.
   */
  function Authorize(db: Db, authorization: string, idParam: string, extract: string -> Option<int>,
                     lookupOk: bool)
    : (r: Result<(Id, Schedule), HttpStatus>)
    ensures GetUserIDFromJWT(authorization, extract).Failure? ==> r == Failure(Unauthorized)
    ensures GetUserIDFromJWT(authorization, extract).Success? ==>
      var uid := GetUserIDFromJWT(authorization, extract).value;
      && (Atoi(idParam).None? ==> r == Failure(BadRequest))
      && (Atoi(idParam).Some? ==>
            var id := AsUint(Atoi(idParam).value);
            && (!lookupOk || id !in db.schedules ==> r == Failure(NotFound))
            && (lookupOk && id in db.schedules && db.schedules[id].userId != AsUint(uid) ==> r == Failure(Forbidden))
            && (lookupOk && id in db.schedules && db.schedules[id].userId == AsUint(uid) ==>
                  r == Success((id, Loaded(db, id)))))
    ensures r.Failure? ==> r.error in {Unauthorized, BadRequest, NotFound, Forbidden}
  {
    match GetUserIDFromJWT(authorization, extract)
    case Failure(_) => Failure(Unauthorized)
    case Success(uid) =>
      match Atoi(idParam)
      case None => Failure(BadRequest)
      case Some(n) =>
        match GetScheduleByID(db, AsUint(n), lookupOk)
        case Failure(_) => Failure(NotFound)
        case Success(schedule) =>
          if schedule.userId != AsUint(uid) then Failure(Forbidden) else Success((AsUint(n), schedule))
  }

  /** Whether the caller may act on the schedule the path names. */
  predicate Allowed(db: Db, authorization: string, idParam: string, extract: string -> Option<int>, lookupOk: bool)
  {
    Authorize(db, authorization, idParam, extract, lookupOk).Success?
  }

  /** The schedule key of an allowed request. */
  function Target(db: Db, authorization: string, idParam: string, extract: string -> Option<int>, lookupOk: bool): Id
    requires Allowed(db, authorization, idParam, extract, lookupOk)
  {
    Authorize(db, authorization, idParam, extract, lookupOk).value.0
  }

  /** A path id that is not an integer is refused before the store is consulted. */
  lemma BadIdNeedsNoLookup(db1: Db, db2: Db, authorization: string, idParam: string, extract: string -> Option<int>,
                           ok1: bool, ok2: bool)
    requires GetUserIDFromJWT(authorization, extract).Success? && Atoi(idParam).None?
    ensures Authorize(db1, authorization, idParam, extract, ok1) == Authorize(db2, authorization, idParam, extract, ok2)
         == Failure(BadRequest)
  {
  }

  /** An unknown schedule, or a failed lookup, is not-found whoever the caller is. */
  lemma UnknownBeforeOwnership(db: Db, authorization: string, idParam: string,
                               e1: string -> Option<int>, e2: string -> Option<int>, lookupOk: bool)
    requires GetUserIDFromJWT(authorization, e1).Success? && GetUserIDFromJWT(authorization, e2).Success?
    requires Atoi(idParam).Some? && (!lookupOk || AsUint(Atoi(idParam).value) !in db.schedules)
    ensures Authorize(db, authorization, idParam, e1, lookupOk) == Authorize(db, authorization, idParam, e2, lookupOk) == Failure(NotFound)
  {
  }

  // ----- Handlers ----------------------------------------------------------

  /** GET one schedule: the guards, then the schedule with its tasks. */
  function GetScheduleDetails(db: Db, authorization: string, idParam: string, extract: string -> Option<int>,
                              lookupOk: bool)
    : (r: (HttpStatus, Option<Schedule>))
    ensures r.0 == Ok <==> Allowed(db, authorization, idParam, extract, lookupOk)
    ensures r.0 == Ok ==>
      var id := Target(db, authorization, idParam, extract, lookupOk);
      id in db.schedules && r.1 == Some(Loaded(db, id))
    ensures r.0 != Ok ==> r.1.None? && r == (Authorize(db, authorization, idParam, extract, lookupOk).error, None)
  {
    match Authorize(db, authorization, idParam, extract, lookupOk)
    case Failure(status) => (status, None)
    case Success((_, schedule)) => (Ok, Some(schedule))
  }

  /**
   * POST clock-in: the guards, then the body (400 when it does not bind or
   * its coordinates are off the globe), then the clock-in write (500 when it
   * fails). Neither the schedule's status nor its tasks are checked.
   */
  function StartVisitHandler(db: Db, authorization: string, idParam: string, body: Option<VisitLocationRequest>,
                             extract: string -> Option<int>, lookupOk: bool, now: int, writeOk: bool): (r: Response)
    ensures r.status != Ok ==> r.db == db
    ensures !Allowed(db, authorization, idParam, extract, lookupOk) ==>
      r.status == Authorize(db, authorization, idParam, extract, lookupOk).error
    ensures Allowed(db, authorization, idParam, extract, lookupOk) ==>
      && (BindLocation(body).None? ==> r.status == BadRequest)
      && (BindLocation(body).Some? && !InRange(body.value) ==> r.status == BadRequest)
      && (BindLocation(body).Some? && InRange(body.value) ==> r.status == (if writeOk then Ok else InternalServerError))
    ensures r.status == Ok ==>
      r.db == StartVisit(db, Target(db, authorization, idParam, extract, lookupOk), body.value.latitude, body.value.longitude, now)
  {
    match Authorize(db, authorization, idParam, extract, lookupOk)
    case Failure(status) => Response(status, db)
    case Success((id, _)) =>
      match BindLocation(body)
      case None => Response(BadRequest, db)
      case Some(req) =>
        if !InRange(req) then Response(BadRequest, db)
        else if !writeOk then Response(InternalServerError, db)
        else Response(Ok, StartVisit(db, id, req.latitude, req.longitude, now))
  }

  /**
   * POST clock-out: the same checks as clock-in, then the clock-out write.
   */
  function EndVisitHandler(db: Db, authorization: string, idParam: string, body: Option<VisitLocationRequest>,
                           extract: string -> Option<int>, lookupOk: bool, now: int, writeOk: bool): (r: Response)
    ensures r.status != Ok ==> r.db == db
    ensures !Allowed(db, authorization, idParam, extract, lookupOk) ==>
      r.status == Authorize(db, authorization, idParam, extract, lookupOk).error
    ensures Allowed(db, authorization, idParam, extract, lookupOk) ==>
      && (BindLocation(body).None? ==> r.status == BadRequest)
      && (BindLocation(body).Some? && !InRange(body.value) ==> r.status == BadRequest)
      && (BindLocation(body).Some? && InRange(body.value) ==> r.status == (if writeOk then Ok else InternalServerError))
    ensures r.status == Ok ==>
      r.db == EndVisit(db, Target(db, authorization, idParam, extract, lookupOk), body.value.latitude, body.value.longitude, now)
  {
    match Authorize(db, authorization, idParam, extract, lookupOk)
    case Failure(status) => Response(status, db)
    case Success((id, _)) =>
      match BindLocation(body)
      case None => Response(BadRequest, db)
      case Some(req) =>
        if !InRange(req) then Response(BadRequest, db)
        else if !writeOk then Response(InternalServerError, db)
        else Response(Ok, EndVisit(db, id, req.latitude, req.longitude, now))
  }

  /**
   * POST cancel clock-in: the guards, then the reset write. There is no body
   * and no check of the schedule's status.
   */
  function CancelStartVisitHandler(db: Db, authorization: string, idParam: string,
                                   extract: string -> Option<int>, lookupOk: bool, writeOk: bool): (r: Response)
    ensures r.status != Ok ==> r.db == db
    ensures r.status == Ok <==> Allowed(db, authorization, idParam, extract, lookupOk) && writeOk
    ensures !Allowed(db, authorization, idParam, extract, lookupOk) ==>
      r.status == Authorize(db, authorization, idParam, extract, lookupOk).error
    ensures Allowed(db, authorization, idParam, extract, lookupOk) && !writeOk ==> r.status == InternalServerError
    ensures r.status == Ok ==> r.db == CancelStartVisit(db, Target(db, authorization, idParam, extract, lookupOk))
  {
    match Authorize(db, authorization, idParam, extract, lookupOk)
    case Failure(status) => Response(status, db)
    case Success((id, _)) =>
      if !writeOk then Response(InternalServerError, db) else Response(Ok, CancelStartVisit(db, id))
  }

  /**
   * A caller who does not own the schedule gets 403 from clock-in and
   * clock-out whatever body was sent, and the store is untouched.
   */
  lemma ForbiddenBeforeBody(db: Db, authorization: string, idParam: string, b1: Option<VisitLocationRequest>,
                            b2: Option<VisitLocationRequest>, extract: string -> Option<int>, lookupOk: bool, now: int,
                            writeOk: bool)
    requires Authorize(db, authorization, idParam, extract, lookupOk) == Failure(Forbidden)
    ensures StartVisitHandler(db, authorization, idParam, b1, extract, lookupOk, now, writeOk) == Response(Forbidden, db)
    ensures StartVisitHandler(db, authorization, idParam, b2, extract, lookupOk, now, writeOk) == Response(Forbidden, db)
    ensures EndVisitHandler(db, authorization, idParam, b1, extract, lookupOk, now, writeOk) == Response(Forbidden, db)
    ensures CancelStartVisitHandler(db, authorization, idParam, extract, lookupOk, writeOk) == Response(Forbidden, db)
    ensures GetScheduleDetails(db, authorization, idParam, extract, lookupOk) == (Forbidden, None)
  {
  }

  /**
   * Clock-in on a schedule the caller owns, with coordinates on the globe,
   * succeeds whatever the schedule's status and however many tasks it has,
   * and leaves it `in_progress`.
   */
  lemma {:induction false} StartVisitAnyState(db: Db, authorization: string, idParam: string,
                                               req: VisitLocationRequest, extract: string -> Option<int>, lookupOk: bool,
                                               now: int)
    requires Allowed(db, authorization, idParam, extract, lookupOk)
    requires req.latitude != 0.0 && req.longitude != 0.0 && InRange(req)
    ensures var r := StartVisitHandler(db, authorization, idParam, Some(req), extract, lookupOk, now, true);
      var id := Target(db, authorization, idParam, extract, lookupOk);
      && r.status == Ok
      && id in r.db.schedules
      && r.db.schedules[id].status == InProgress
      && r.db.schedules[id].startTime == Some(Time(now, Utc))
  {
    var id := Target(db, authorization, idParam, extract, lookupOk);
    assert id in db.schedules;
  }

  /** A body whose latitude or longitude is zero is refused even where zero is on the globe. */
  lemma ZeroCoordinateRefused(db: Db, authorization: string, idParam: string, lon: real,
                              extract: string -> Option<int>, lookupOk: bool, now: int)
    requires Allowed(db, authorization, idParam, extract, lookupOk)
    ensures StartVisitHandler(db, authorization, idParam, Some(VisitLocationRequest(0.0, lon)), extract, lookupOk, now, true)
         == Response(BadRequest, db)
  {
  }

  // ----- Create ------------------------------------------------------------

  /** Whether a shift's optional start lies strictly after its optional end. */
  predicate StartsAfterEnd(input: ScheduleInput)
  {
    input.startTime.Some? && input.endTime.Some? && input.startTime.value.unix > input.endTime.value.unix
  }

  /**
   * POST a new schedule: the caller's token (401), a body that binds (400),
   * a start that is not after the end (400), then the insert (500 when it
   * fails). The caller's own id plays no part: the schedule goes to whatever
   * user id the body names, and the record's other validation rules are not
   * applied.
   */
  function CreateScheduleHandler(db: Db, authorization: string, body: Option<ScheduleInput>,
                                 extract: string -> Option<int>, createOk: bool): (r: Response)
    ensures r.status != Created ==> r.db == db
    ensures GetUserIDFromJWT(authorization, extract).Failure? ==> r.status == Unauthorized
    ensures GetUserIDFromJWT(authorization, extract).Success? ==>
      && (body.None? ==> r.status == BadRequest)
      && (body.Some? && StartsAfterEnd(body.value) ==> r.status == BadRequest)
      && (body.Some? && !StartsAfterEnd(body.value) ==>
            && (r.status == Created <==> createOk && CreateSchedule(db, body.value).Success?)
            && (r.status != Created ==> r.status == InternalServerError))
    ensures r.status == Created ==> body.Some? && r.db == CreateSchedule(db, body.value).value.1
  {
    match GetUserIDFromJWT(authorization, extract)
    case Failure(_) => Response(Unauthorized, db)
    case Success(_) =>
      match body
      case None => Response(BadRequest, db)
      case Some(input) =>
        if StartsAfterEnd(input) then Response(BadRequest, db)
        else if !createOk then Response(InternalServerError, db)
        else
          match CreateSchedule(db, input)
          case Failure(_) => Response(InternalServerError, db)
          case Success((_, db')) => Response(Created, db')
  }

  /** A shift whose start equals its end, or that lacks either bound, passes the order check. */
  lemma {:induction false} EqualOrOpenShiftAccepted(input: ScheduleInput)
    requires input.startTime.None? || input.endTime.None?
          || input.startTime.value.unix == input.endTime.value.unix
    ensures !StartsAfterEnd(input)
  {
  }

  /** Who creates a schedule does not matter: any two verified callers get the same answer. */
  lemma CreatorIsNotChecked(db: Db, authorization: string, body: Option<ScheduleInput>,
                            e1: string -> Option<int>, e2: string -> Option<int>, createOk: bool)
    requires GetUserIDFromJWT(authorization, e1).Success? && GetUserIDFromJWT(authorization, e2).Success?
    ensures CreateScheduleHandler(db, authorization, body, e1, createOk)
         == CreateScheduleHandler(db, authorization, body, e2, createOk)
  {
  }
}

=== FILE: ids.dfy ===
/**
 * Primary keys and the order in which the store returns rows.
 *
 * Every key of the store is a Go `uint` on a 64-bit platform. The store has no
 * ORDER BY in any query of the core, so the model fixes one concrete row
 * order: ascending primary key.
 */
module Ids {

  const Uint64Limit: int := 0x1_0000_0000_0000_0000

  /** A Go `uint` (64 bits): the type of every id and foreign key. */
  type Id = x: int | 0 <= x < Uint64Limit

  /** Go's conversion `uint(x)` of an `int`: the two's-complement bits read as unsigned. */
  function AsUint(x: int): (r: Id)
    ensures 0 <= x < Uint64Limit ==> r == x
    ensures -Uint64Limit <= x < 0 ==> r == x + Uint64Limit
    ensures (r - x) % Uint64Limit == 0
  {
    x % Uint64Limit
  }

  /** `k` is the least element of `ks`. */
  predicate IsLeast(k: Id, ks: set<Id>)
  {
    k in ks && forall j :: j in ks ==> k <= j
  }

  /** Every non-empty set of keys has a least element. */
  lemma {:induction false} LeastExists(ks: set<Id>)
    requires ks != {}
    ensures exists k :: IsLeast(k, ks)
    decreases ks
  {
    var x :| x in ks;
    assert forall j :: j in ks ==> j == x || j in ks - {x};
    if ks - {x} == {} {
      assert IsLeast(x, ks);
    } else {
      LeastExists(ks - {x});
      var m :| IsLeast(m, ks - {x});
      if x <= m {
        assert IsLeast(x, ks);
      } else {
        assert IsLeast(m, ks);
      }
    }
  }

  /** The keys of a sequence are strictly increasing. */
  predicate Increasing(s: seq<Id>)
  {
    forall i, j :: 0 <= i < j < |s| ==> s[i] < s[j]
  }

  /** The first element of a non-empty sequence is one of its members. */
  lemma HeadIsMember(s: seq<Id>)
    requires s != []
    ensures s[0] in s
  {
  }

  /** Prefixing a key below every key of an increasing sequence keeps it increasing. */
  lemma ConsIncreasing(h: Id, rest: seq<Id>)
    ensures Increasing(rest) && (forall k :: k in rest ==> h < k) ==> Increasing([h] + rest)
  {
    if Increasing(rest) && (forall k :: k in rest ==> h < k) {
      var r := [h] + rest;
      forall i, j | 0 <= i < j < |r|
        ensures r[i] < r[j]
      {
        assert r[j] == rest[j - 1] && rest[j - 1] in rest;
        if i > 0 {
          assert r[i] == rest[i - 1];
        }
      }
    }
  }

  /** The tail of an increasing sequence is increasing and lies above its head. */
  lemma IncreasingTail(s: seq<Id>)
    requires s != []
    ensures Increasing(s) ==> Increasing(s[1..]) && forall k :: k in s[1..] ==> s[0] < k
  {
    if Increasing(s) {
      forall k | k in s[1..]
        ensures s[0] < k
      {
        var j :| 0 <= j < |s[1..]| && s[1..][j] == k;
        assert s[j + 1] == k;
      }
    }
  }

  /** The least key of a non-empty key set. */
  function Least(ks: set<Id>): (r: Id)
    requires ks != {}
    ensures IsLeast(r, ks)
  {
    LeastExists(ks);
    var k :| IsLeast(k, ks);
    k
  }

  /** The keys of `ks` in ascending order: the row order of every scan. */
  function Ascending(ks: set<Id>): (r: seq<Id>)
    ensures forall k :: k in ks <==> k in r
    ensures Increasing(r)
    ensures |r| == |ks|
    decreases ks
  {
    if ks == {} then []
    else
      var k := Least(ks);
      var rest := Ascending(ks - {k});
      assert forall j :: j in rest ==> k < j;
      ConsIncreasing(k, rest);
      [k] + rest
  }

  /**
   * The key an auto-increment column hands out next: one above the largest
   * key in use (1 for an empty table), or nothing once the 64-bit range is
   * exhausted.
   */
  function NextId(ks: set<Id>): (r: Option<Id>)
    ensures r.Some? ==> r.value !in ks && r.value > 0
    ensures r.Some? ==> forall k :: k in ks ==> k < r.value
    ensures r.None? ==> Uint64Limit - 1 in ks
  {
    if ks == {} then Some(1)
    else
      var keys := Ascending(ks);
      var top := keys[|keys| - 1];
      if top + 1 < Uint64Limit then Some(top + 1) else None
  }

  import opened Wrappers
}

=== FILE: instants.dfy ===
/**
 * Instants as the core handles them: whole Unix seconds tagged with the
 * location they are displayed in, and the fixed 24-hour day the "today"
 * queries use. A Go `time.Time` carries nanoseconds; the model keeps only
 * the second, so two instants within the same second are equal here.
 */
module Instants {
  import opened Wrappers

  /** A `*time.Location`, reduced to an opaque tag; only equality is observed. */
  type Zone = string

  const Utc: Zone := "UTC"

  /** An absolute instant (`unix`) displayed in location `zone`. */
  datatype Time = Time(unix: int, zone: Zone)

  /** `t.In(loc)`: the same instant, displayed in `loc`. */
  function In(t: Time, loc: Zone): Time
  {
    t.(zone := loc)
  }

  /** The optional instant re-expressed in `loc`. */
  function OptionIn(t: Option<Time>, loc: Zone): Option<Time>
  {
    match t
    case None => None
    case Some(x) => Some(In(x, loc))
  }

  const SecondsPerDay: int := 86400

  /**
   * `t.Truncate(24 * time.Hour)`: Go truncates the absolute instant, not the
   * wall clock, so the result is the UTC midnight at or before `now` whatever
   * location `now` carries.
   */
  function TruncateDay(now: int): (start: int)
    ensures start % SecondsPerDay == 0
    ensures start <= now < start + SecondsPerDay
  {
    now - now % SecondsPerDay
  }

  /** UTC midnight is the only multiple of a day within one day at or before `now`. */
  lemma TruncateDayUnique(now: int, m: int)
    requires m % SecondsPerDay == 0
    requires m <= now < m + SecondsPerDay
    ensures m == TruncateDay(now)
  {
    var s := TruncateDay(now);
    var q := m / SecondsPerDay;
    var p := s / SecondsPerDay;
    assert m == q * SecondsPerDay;
    assert s == p * SecondsPerDay;
  }

  /** SQL `t BETWEEN start AND start + 24h`: inclusive at both ends. */
  predicate InDayWindow(start: int, t: int)
  {
    start <= t <= start + SecondsPerDay
  }

  /**
   * Because both ends of the window are inclusive, the instant of the next
   * UTC midnight belongs to today's window and to tomorrow's.
   */
  lemma NextMidnightInTwoWindows(now: int)
    ensures InDayWindow(TruncateDay(now), TruncateDay(now) + SecondsPerDay)
    ensures InDayWindow(TruncateDay(now + SecondsPerDay), TruncateDay(now) + SecondsPerDay)
  {
    var s := TruncateDay(now);
    TruncateDayUnique(now + SecondsPerDay, s + SecondsPerDay);
  }
}

=== FILE: models.dfy ===
/**
 * The records of the system: schedules with their lifecycle status, the tasks
 * of a schedule, users and their roles, and the clock-in/out request body.
 * Nullable columns are `Option`s; non-nullable ones are not.
 */
module Models {
  import opened Wrappers
  import opened Ids
  import opened Instants
  import opened Collation
  import opened Decimal

  // ----- Schedules -------------------------------------------------------

  /**
   * The lifecycle status of a schedule. The first four are the declared
   * constants; `Missed` is the value the missed-schedule reconcile writes,
   * which the record's declarations do not include.
   */
  datatype ScheduleStatus = Scheduled | InProgress | Completed | Cancelled | Missed

  /** The name a status is stored and serialised under. */
  function StatusName(s: ScheduleStatus): string
  {
    match s
    case Scheduled => "scheduled"
    case InProgress => "in_progress"
    case Completed => "completed"
    case Cancelled => "cancelled"
    case Missed => "missed"
  }

  /** Reads a stored status name back; unknown names have no status. */
  function ParseStatus(name: string): (r: Option<ScheduleStatus>)
    ensures r.Some? ==> StatusName(r.value) == name
  {
    if name == "scheduled" then Some(Scheduled)
    else if name == "in_progress" then Some(InProgress)
    else if name == "completed" then Some(Completed)
    else if name == "cancelled" then Some(Cancelled)
    else if name == "missed" then Some(Missed)
    else None
  }

  /** Every status survives a trip through its name. */
  lemma StatusNameRoundTrip(s: ScheduleStatus)
    ensures ParseStatus(StatusName(s)) == Some(s)
  {
  }

  /** The status constants the record declares. */
  const DeclaredStatuses: set<ScheduleStatus> := {Scheduled, InProgress, Completed, Cancelled}

  /** The names the status column's enum type admits, in declaration order. */
  const StatusEnum: seq<string> := ["scheduled", "in_progress", "completed", "cancelled"]

  // ----- Enum columns ----------------------------------------------------

  /**
   * Whether a string assigned to an enum column with members `members`
   * finds a member. The string may collate equal to a member; failing that,
   * a string of digits is read as a member's 1-based position, the way
   * MySQL treats a quoted number. Position 0 and positions past the end
   * name no member, and the store, running in strict mode, refuses them.
   */
  predicate Admits(members: seq<string>, name: string)
  {
    Fold(name) in members || (IsDigits(name) && 1 <= DigitsValue(name) <= |members|)
  }

  /** Whether assigning `name` to an enum column with members `members` stores member `m`. */
  predicate Selects(members: seq<string>, name: string, m: string)
  {
    if Fold(name) in members then m == Fold(name)
    else IsDigits(name) && 1 <= DigitsValue(name) <= |members| && m == members[DigitsValue(name) - 1]
  }

  /** A run of digits never collates equal to a member that starts with a letter. */
  lemma {:induction false} DigitsAreNoMember(members: seq<string>, d: string)
    requires IsDigits(d)
    requires forall i :: 0 <= i < |members| ==> |members[i]| > 0 && 'a' <= members[i][0] <= 'z'
    ensures Fold(d) !in members
  {
    assert Fold(d)[0] == d[0];
  }

  /**
   * The status an assignment of `name` to the status column stores: the
   * member `name` selects. The members are written in small letters, so any
   * capitalisation of a member's name selects it, and a quoted position
   * from 1 to 4 selects the member declared there.
   */
  function EnumStatus(name: string): (r: Option<ScheduleStatus>)
    ensures r.Some? <==> Admits(StatusEnum, name)
    ensures r.Some? ==> Selects(StatusEnum, name, StatusName(r.value)) && r.value in DeclaredStatuses
    ensures Fold(name) in StatusEnum ==> r.Some? && StatusName(r.value) == Fold(name)
  {
    if Fold(name) in StatusEnum then ParseStatus(Fold(name))
    else if IsDigits(name) && 1 <= DigitsValue(name) <= |StatusEnum| then ParseStatus(StatusEnum[DigitsValue(name) - 1])
    else None
  }

  /** Every declared status's name, in any capitalisation, selects that status. */
  lemma {:induction false} EnumStatusIgnoresCase(s: ScheduleStatus, name: string)
    requires s in DeclaredStatuses && SameText(name, StatusName(s))
    ensures EnumStatus(name) == Some(s)
  {
    assert IsFolded(StatusName(s));
    FoldedExactlyWhenFixed(StatusName(s));
  }

  /**
   * A run of digits, leading zeros allowed, selects the status declared at
   * that 1-based position, and is refused when the position is 0 or past the
   * last member.
   */
  lemma {:induction false} EnumStatusByPosition(d: string)
    requires IsDigits(d)
    ensures EnumStatus(d).Some? <==> 1 <= DigitsValue(d) <= |StatusEnum|
    ensures EnumStatus(d).Some? ==> StatusName(EnumStatus(d).value) == StatusEnum[DigitsValue(d) - 1]
  {
    DigitsAreNoMember(StatusEnum, d);
  }

  /** The status a schedule takes when it is created without one. */
  const DefaultStatus: ScheduleStatus := Scheduled

  /**
   * The declared constants and the column's enum agree with each other, and
   * neither admits `missed`.
   */
  lemma MissedIsUndeclared()
    ensures Missed !in DeclaredStatuses
    ensures StatusName(Missed) !in StatusEnum
    ensures forall s :: StatusName(s) in StatusEnum <==> s in DeclaredStatuses
    ensures DefaultStatus in DeclaredStatuses
  {
  }

  /**
   * A planned caregiver visit. `userId`, `clientName`, `location` and
   * `shiftTime` are required; the clock-in/out instants and coordinates are
   * nullable. `tasks` is filled in by queries from the task table.
   */
  datatype Schedule = Schedule(
    id: Id,
    userId: Id,
    clientName: string,
    location: string,
    shiftTime: Time,
    status: ScheduleStatus,
    startTime: Option<Time>,
    endTime: Option<Time>,
    startLat: Option<real>,
    startLon: Option<real>,
    endLat: Option<real>,
    endLon: Option<real>,
    tasks: seq<Task>)

  /**
   * A schedule as a create request carries it. `status` is the raw JSON
   * string; the empty string means the field was absent.
   */
  datatype ScheduleInput = ScheduleInput(
    userId: Id,
    clientName: string,
    location: string,
    shiftTime: Time,
    status: string,
    startTime: Option<Time>,
    endTime: Option<Time>,
    startLat: Option<real>,
    startLon: Option<real>,
    endLat: Option<real>,
    endLon: Option<real>)

  /** The coordinates of a clock-in or clock-out; both are required. */
  datatype VisitLocationRequest = VisitLocationRequest(latitude: real, longitude: real)

  // ----- Tasks -----------------------------------------------------------

  datatype TaskStatus = TaskCompleted | TaskNotCompleted

  function TaskStatusName(s: TaskStatus): string
  {
    match s
    case TaskCompleted => "completed"
    case TaskNotCompleted => "not_completed"
  }

  /** The names the task status column's enum type admits, in declaration order. */
  const TaskEnum: seq<string> := ["completed", "not_completed"]

  /** The task status column's enum: a name outside it has no status. */
  function ParseTaskStatus(name: string): (r: Option<TaskStatus>)
    ensures r.Some? ==> TaskStatusName(r.value) == name
    ensures r.None? ==> name != "completed" && name != "not_completed"
  {
    if name == "completed" then Some(TaskCompleted)
    else if name == "not_completed" then Some(TaskNotCompleted)
    else None
  }

  /**
   * The status an assignment of `name` to the task status column stores,
   * as for schedules: any capitalisation of `completed` or `not_completed`,
   * or a quoted position 1 or 2.
   */
  function EnumTaskStatus(name: string): (r: Option<TaskStatus>)
    ensures r.Some? <==> Admits(TaskEnum, name)
    ensures r.Some? ==> Selects(TaskEnum, name, TaskStatusName(r.value))
    ensures Fold(name) in TaskEnum ==> r.Some? && TaskStatusName(r.value) == Fold(name)
  {
    if Fold(name) in TaskEnum then ParseTaskStatus(Fold(name))
    else if IsDigits(name) && 1 <= DigitsValue(name) <= |TaskEnum| then ParseTaskStatus(TaskEnum[DigitsValue(name) - 1])
    else None
  }

  /** As for schedules: a run of digits selects the task status at that 1-based position, if any. */
  lemma {:induction false} EnumTaskStatusByPosition(d: string)
    requires IsDigits(d)
    ensures EnumTaskStatus(d).Some? <==> 1 <= DigitsValue(d) <= |TaskEnum|
    ensures EnumTaskStatus(d).Some? ==> TaskStatusName(EnumTaskStatus(d).value) == TaskEnum[DigitsValue(d) - 1]
  {
    DigitsAreNoMember(TaskEnum, d);
  }

  /**
   * Quoted numbers: `2` stores `in_progress` and `1` stores task status
   * `completed`; `0` and a position past the last member are refused.
   */
  lemma {:induction false} QuotedPositions()
    ensures EnumStatus("2") == Some(InProgress)
    ensures EnumStatus("0") == None && EnumStatus("5") == None
    ensures EnumTaskStatus("1") == Some(TaskCompleted)
    ensures EnumTaskStatus("3") == None
  {
    assert DigitsValue("2") == 2 && DigitsValue("0") == 0 && DigitsValue("5") == 5;
    assert DigitsValue("1") == 1 && DigitsValue("3") == 3;
    EnumStatusByPosition("2");
    EnumStatusByPosition("0");
    EnumStatusByPosition("5");
    EnumTaskStatusByPosition("1");
    EnumTaskStatusByPosition("3");
  }

  /** Every task status's name, in any capitalisation, selects that status. */
  lemma {:induction false} EnumTaskStatusIgnoresCase(s: TaskStatus, name: string)
    requires SameText(name, TaskStatusName(s))
    ensures EnumTaskStatus(name) == Some(s)
  {
    assert IsFolded(TaskStatusName(s));
    FoldedExactlyWhenFixed(TaskStatusName(s));
  }

  const DefaultTaskStatus: TaskStatus := TaskNotCompleted

  /**
   * One unit of work of a schedule. `scheduleId` and `description` are
   * required; `reason` and `completedAt` are independent nullable fields with
   * no coupling to `status`.
   */
  datatype Task = Task(
    id: Id,
    scheduleId: Id,
    description: string,
    status: TaskStatus,
    reason: Option<string>,
    completedAt: Option<Time>)

  /** A task as a request body carries it; `status` is the raw JSON string. */
  datatype TaskInput = TaskInput(
    scheduleId: Id,
    description: string,
    status: string,
    reason: Option<string>,
    completedAt: Option<Time>)

  // ----- Users -----------------------------------------------------------

  const RoleAdmin: int := 1
  const RoleCustomerCare: int := 2
  const RoleCaregiver: int := 3

  /** The role ids the user record's validation tag admits. */
  const RoleIds: set<int> := {RoleAdmin, RoleCustomerCare, RoleCaregiver}

  /** The role a user row takes when it is stored without one. */
  const DefaultRoleId: int := RoleCaregiver

  /** The minimum password lengths of the user record and of the registration request. */
  const UserPasswordMinLength: nat := 8
  const RegisterPasswordMinLength: nat := 6

  /** A user. `email` and `mobile` are each unique; `refreshToken` is nullable. */
  datatype User = User(
    id: Id,
    email: string,
    mobile: string,
    fullName: string,
    password: string,
    roleId: int,
    refreshToken: Option<string>)

}

=== FILE: scheduler.dfy ===
/**
 * The schedule service: creating and looking up schedules, the three visit
 * transitions (clock-in, clock-out, cancel clock-in), the list queries, and
 * the missed-schedule reconcile with its display conversion.
 *
 * `now` stands for `time.Now()` in Unix seconds; a transition stores it as a
 * UTC instant.
 */
module Scheduler {
  import opened Wrappers
  import opened Ids
  import opened Instants
  import opened Models
  import opened Store
  import opened Collation
  import Decimal

  // ----- Create and lookup -------------------------------------------------

  /**
   * The status a new row stores: the column default when the request leaves
   * it empty, otherwise the enum member the name selects (the member it
   * collates equal to, or the one at the position a quoted number gives),
   * if the column's enum has one.
   */
  function InitialStatus(name: string): (r: Option<ScheduleStatus>)
    ensures name == "" ==> r == Some(Scheduled)
    ensures name != "" ==> (r.Some? <==> Admits(StatusEnum, name))
    ensures r.Some? && name != "" ==> Selects(StatusEnum, name, StatusName(r.value))
    ensures Fold(name) in StatusEnum ==> r.Some? && StatusName(r.value) == Fold(name) && SameText(StatusName(r.value), name)
  {
    if name == "" then Some(DefaultStatus)
    else
      FoldedExactlyWhenFixed(name);
      EnumStatus(name)
  }

  /** A capitalised status name is stored as the status it names. */
  lemma {:induction false} InitialStatusIgnoresCase()
    ensures InitialStatus("Completed") == Some(Completed)
  {
    assert Fold("Completed") == "completed";
    EnumStatusIgnoresCase(Completed, "Completed");
  }

  /** A quoted `3` in a request is stored as the third member, `completed`. */
  lemma {:induction false} QuotedPositionIsStored()
    ensures InitialStatus("3") == Some(Completed)
  {
    assert Decimal.DigitsValue("3") == 3;
    EnumStatusByPosition("3");
  }

  /** `missed` is refused in any letter case. */
  lemma {:induction false} MissedRefusedInAnyCase()
    ensures InitialStatus("Missed") == None
  {
    assert Fold("Missed") == "missed";
  }

  /** Row `s` carries every column of create request `input` except the status. */
  predicate Carries(s: Schedule, input: ScheduleInput)
  {
    && s.userId == input.userId
    && s.clientName == input.clientName
    && s.location == input.location
    && s.shiftTime == input.shiftTime
    && s.startTime == input.startTime
    && s.endTime == input.endTime
    && s.startLat == input.startLat
    && s.startLon == input.startLon
    && s.endLat == input.endLat
    && s.endLon == input.endLon
  }

  /** The row a create request stores under key `id`. */
  function NewRow(id: Id, input: ScheduleInput, status: ScheduleStatus): Schedule
  {
    Schedule(id, input.userId, input.clientName, input.location, input.shiftTime, status,
             input.startTime, input.endTime, input.startLat, input.startLon, input.endLat, input.endLon, [])
  }

  /**
   * Inserts a schedule under the next auto-increment key. A status outside
   * the column's enum, `missed` included, is refused by the store.
   */
  function CreateSchedule(db: Db, input: ScheduleInput): (r: Result<(Id, Db), DbError>)
    ensures r.Failure? <==> InitialStatus(input.status).None? || NextId(db.schedules.Keys).None?
    ensures InitialStatus(input.status).None? ==> r == Failure(EnumViolation)
    ensures r.Success? ==>
      var (id, db') := r.value;
      && id !in db.schedules
      && db'.tasks == db.tasks
      && db'.schedules.Keys == db.schedules.Keys + {id}
      && (forall k :: k in db.schedules ==> db'.schedules[k] == db.schedules[k])
      && Carries(db'.schedules[id], input)
      && (input.status == "" ==> db'.schedules[id].status == Scheduled)
      && (input.status != "" ==> Selects(StatusEnum, input.status, StatusName(db'.schedules[id].status)))
  {
    match InitialStatus(input.status)
    case None => Failure(EnumViolation)
    case Some(status) =>
      match NextId(db.schedules.Keys)
      case None => Failure(IdsExhausted)
      case Some(id) => Success((id, db.(schedules := db.schedules[id := NewRow(id, input, status)])))
  }

  /**
   * The schedule with that id, tasks attached, or not-found. Whether the
   * statement itself succeeds is the environment's choice (`lookupOk`); a
   * failed statement is a store fault whether or not the row exists.
   */
  function GetScheduleByID(db: Db, id: Id, lookupOk: bool): (r: Result<Schedule, DbError>)
    ensures r.Success? <==> lookupOk && id in db.schedules
    ensures r.Success? ==> r.value == Loaded(db, id) && r.value.id == id && AllIn(r.value, Utc)
    ensures r.Failure? ==> r.error == (if lookupOk then RecordNotFound else StoreFault)
  {
    if !lookupOk then Failure(StoreFault)
    else if id in db.schedules then
      LoadedIsUtc(db, id);
      Success(Loaded(db, id))
    else Failure(RecordNotFound)
  }

  /** A create request with its instants shown in UTC, as a read gives them back. */
  function InputInUtc(input: ScheduleInput): ScheduleInput
  {
    input.(shiftTime := In(input.shiftTime, Utc), startTime := OptionIn(input.startTime, Utc),
           endTime := OptionIn(input.endTime, Utc))
  }

  /**
   * A created schedule is found under its new key with the request's
   * columns, its instants the request's instants shown in UTC; in a store
   * where every task names an existing schedule it has no tasks yet.
   */
  lemma {:induction false} CreatedScheduleIsFound(db: Db, input: ScheduleInput)
    requires CreateSchedule(db, input).Success?
    ensures var (id, db') := CreateSchedule(db, input).value;
      var found := GetScheduleByID(db', id, true);
      && found.Success?
      && found.value.id == id
      && Carries(found.value, InputInUtc(input))
      && found.value.shiftTime.unix == input.shiftTime.unix
      && AllIn(found.value, Utc)
      && ((forall k :: k in db.tasks ==> db.tasks[k].scheduleId in db.schedules) ==> found.value.tasks == [])
  {
    var (id, db') := CreateSchedule(db, input).value;
    var ts := TasksOf(db', id);
    if (forall k :: k in db.tasks ==> db.tasks[k].scheduleId in db.schedules) && ts != [] {
      assert false;
    }
  }

  // ----- Visit transitions -------------------------------------------------

  /** The instant `time.Now()` is stored as. */
  function Stamp(now: int): Time
  {
    Time(now, Utc)
  }

  /** The store with row `id` replaced by `row`, when that row exists. */
  function Overwrite(db: Db, id: Id, row: Schedule): Db
  {
    if id in db.schedules then db.(schedules := db.schedules[id := row]) else db
  }

  /**
   * Clock-in: writes the start instant, the start coordinates and
   * `in_progress` onto the row, whatever its status was. An unknown id
   * updates no row.
   */
  function StartVisit(db: Db, id: Id, lat: real, lon: real, now: int): (r: Db)
    ensures r.tasks == db.tasks && r.schedules.Keys == db.schedules.Keys
    ensures forall k :: k in db.schedules && k != id ==> r.schedules[k] == db.schedules[k]
    ensures id !in db.schedules ==> r == db
    ensures id in db.schedules ==>
      var before, after := db.schedules[id], r.schedules[id];
      && after.startTime == Some(Time(now, Utc))
      && after.startLat == Some(lat)
      && after.startLon == Some(lon)
      && after.status == InProgress
      && before.(startTime := after.startTime, startLat := after.startLat, startLon := after.startLon, status := after.status) == after
  {
    if id in db.schedules then
      Overwrite(db, id, db.schedules[id].(startTime := Some(Stamp(now)), startLat := Some(lat), startLon := Some(lon), status := InProgress))
    else db
  }

  /**
   * Clock-out: writes the end instant, the end coordinates and `completed`
   * onto the row, whatever its status was.
   */
  function EndVisit(db: Db, id: Id, lat: real, lon: real, now: int): (r: Db)
    ensures r.tasks == db.tasks && r.schedules.Keys == db.schedules.Keys
    ensures forall k :: k in db.schedules && k != id ==> r.schedules[k] == db.schedules[k]
    ensures id !in db.schedules ==> r == db
    ensures id in db.schedules ==>
      var before, after := db.schedules[id], r.schedules[id];
      && after.endTime == Some(Time(now, Utc))
      && after.endLat == Some(lat)
      && after.endLon == Some(lon)
      && after.status == Completed
      && before.(endTime := after.endTime, endLat := after.endLat, endLon := after.endLon, status := after.status) == after
  {
    if id in db.schedules then
      Overwrite(db, id, db.schedules[id].(endTime := Some(Stamp(now)), endLat := Some(lat), endLon := Some(lon), status := Completed))
    else db
  }

  /**
   * Cancel clock-in: clears the start instant and coordinates and resets the
   * status to `scheduled`, unconditionally; the end fields are untouched.
   */
  function CancelStartVisit(db: Db, id: Id): (r: Db)
    ensures r.tasks == db.tasks && r.schedules.Keys == db.schedules.Keys
    ensures forall k :: k in db.schedules && k != id ==> r.schedules[k] == db.schedules[k]
    ensures id !in db.schedules ==> r == db
    ensures id in db.schedules ==>
      var before, after := db.schedules[id], r.schedules[id];
      && after.startTime.None? && after.startLat.None? && after.startLon.None?
      && after.status == Scheduled
      && before.(startTime := None, startLat := None, startLon := None, status := Scheduled) == after
  {
    if id in db.schedules then
      Overwrite(db, id, db.schedules[id].(startTime := None, startLat := None, startLon := None, status := Scheduled))
    else db
  }

  /**
   * Cancelling after a clock-out reopens the visit: the row is `scheduled`
   * again with no start but still carries the clock-out instant.
   */
  lemma CancelAfterClockOutReopens(db: Db, id: Id, lat: real, lon: real, now: int)
    requires id in db.schedules
    ensures var row := CancelStartVisit(EndVisit(db, id, lat, lon, now), id).schedules[id];
      row.status == Scheduled && row.startTime.None? && row.endTime == Some(Time(now, Utc))
  {
  }

  /**
   * Clocking in again after a clock-out yields `in_progress` with the earlier
   * clock-out instant still set: no transition checks the prior status.
   */
  lemma ClockInAfterClockOut(db: Db, id: Id, lat: real, lon: real, t1: int, t2: int)
    requires id in db.schedules
    ensures var row := StartVisit(EndVisit(db, id, lat, lon, t1), id, lat, lon, t2).schedules[id];
      row.status == InProgress && row.startTime == Some(Time(t2, Utc)) && row.endTime == Some(Time(t1, Utc))
  {
  }

  /**
   * On a row that has never been clocked in, cancel clock-in undoes
   * clock-in exactly.
   */
  lemma CancelUndoesClockIn(db: Db, id: Id, lat: real, lon: real, now: int)
    requires id in db.schedules
    requires db.schedules[id].status == Scheduled
    requires db.schedules[id].startTime.None? && db.schedules[id].startLat.None? && db.schedules[id].startLon.None?
    ensures CancelStartVisit(StartVisit(db, id, lat, lon, now), id) == db
  {
    var r := CancelStartVisit(StartVisit(db, id, lat, lon, now), id);
    assert r.schedules[id] == db.schedules[id];
    assert r.schedules == db.schedules;
  }

  // ----- Queries -----------------------------------------------------------

  /** Every schedule of the caller, tasks attached. */
  function GetAllSchedules(db: Db, userId: int): (r: seq<Schedule>)
    ensures forall i :: 0 <= i < |r| ==> r[i].id in db.schedules && r[i] == Loaded(db, r[i].id) && r[i].userId == userId
    ensures forall k :: k in db.schedules && db.schedules[k].userId == userId ==> exists i :: 0 <= i < |r| && r[i].id == k
    ensures forall i, j :: 0 <= i < j < |r| ==> r[i].id < r[j].id
  {
    Scan(db, (s: Schedule) => s.userId == userId)
  }

  /**
   * The caller's schedules whose shift falls in today's window: from the UTC
   * midnight at or before `now` to the next one, both ends included.
   */
  function GetTodaySchedules(db: Db, userId: int, now: int): (r: seq<Schedule>)
    ensures forall i :: 0 <= i < |r| ==>
      r[i].id in db.schedules && r[i] == Loaded(db, r[i].id) && InToday(db.schedules[r[i].id], userId, now)
    ensures forall k :: k in db.schedules && InToday(db.schedules[k], userId, now) ==> exists i :: 0 <= i < |r| && r[i].id == k
    ensures forall i, j :: 0 <= i < j < |r| ==> r[i].id < r[j].id
  {
    Scan(db, TodayFilter(userId, now))
  }

  /**
   * The today query's `WHERE` clause: the caller's schedule, with the shift
   * from the UTC midnight at or before `now` to the next one, both included.
   */
  predicate InToday(s: Schedule, userId: int, now: int)
  {
    s.userId == userId && InDayWindow(TruncateDay(now), s.shiftTime.unix)
  }

  function TodayFilter(userId: int, now: int): Schedule -> bool
  {
    (s: Schedule) => InToday(s, userId, now)
  }

  /** The caller's `scheduled` schedules whose shift is at or after `now`. */
  function GetUpcomingSchedules(db: Db, userId: int, now: int): (r: seq<Schedule>)
    ensures forall i :: 0 <= i < |r| ==>
      && r[i].id in db.schedules && r[i] == Loaded(db, r[i].id) && db.schedules[r[i].id].userId == userId
      && db.schedules[r[i].id].status == Scheduled && db.schedules[r[i].id].shiftTime.unix >= now
    ensures forall k :: k in db.schedules && db.schedules[k].userId == userId
                        && db.schedules[k].status == Scheduled && db.schedules[k].shiftTime.unix >= now
                        ==> exists i :: 0 <= i < |r| && r[i].id == k
    ensures forall i, j :: 0 <= i < j < |r| ==> r[i].id < r[j].id
  {
    Scan(db, (s: Schedule) => s.userId == userId && s.shiftTime.unix >= now && s.status == Scheduled)
  }

  /**
   * The caller's `completed` schedules whose shift falls in today's UTC
   * window. The location argument plays no part.
   */
  function GetTodayCompletedSchedules(db: Db, userId: int, now: int, loc: Zone): (r: seq<Schedule>)
    ensures forall i :: 0 <= i < |r| ==>
      && r[i].id in db.schedules && r[i] == Loaded(db, r[i].id)
      && InToday(db.schedules[r[i].id], userId, now) && db.schedules[r[i].id].status == Completed
    ensures forall k :: k in db.schedules && InToday(db.schedules[k], userId, now) && db.schedules[k].status == Completed
                        ==> exists i :: 0 <= i < |r| && r[i].id == k
    ensures forall i, j :: 0 <= i < j < |r| ==> r[i].id < r[j].id
  {
    Scan(db, CompletedTodayFilter(userId, now))
  }

  function CompletedTodayFilter(userId: int, now: int): Schedule -> bool
  {
    (s: Schedule) => InToday(s, userId, now) && s.status == Completed
  }

  /** The completed-today query answers the same whatever location the caller names. */
  lemma CompletedTodayIgnoresZone(db: Db, userId: int, now: int, a: Zone, b: Zone)
    ensures GetTodayCompletedSchedules(db, userId, now, a) == GetTodayCompletedSchedules(db, userId, now, b)
  {
  }

  /** Completed-today is the completed part of today's schedules. */
  lemma CompletedTodayWithinToday(db: Db, userId: int, now: int, loc: Zone)
    ensures forall s :: s in GetTodayCompletedSchedules(db, userId, now, loc) ==> s in GetTodaySchedules(db, userId, now)
  {
    var c := GetTodayCompletedSchedules(db, userId, now, loc);
    var t := GetTodaySchedules(db, userId, now);
    forall s | s in c
      ensures s in t
    {
      var i :| 0 <= i < |c| && c[i] == s;
      var j :| 0 <= j < |t| && t[j].id == s.id;
      assert t[j] == Loaded(db, s.id);
    }
  }

  // ----- Missed reconcile --------------------------------------------------

  /**
   * The keys the missed query selects: the caller's schedules with a
   * non-null clock-out instant before `now` and status `scheduled` or
   * `in_progress`. A null `end_time` never satisfies `end_time < now`.
   */
  function MissedKeys(db: Db, userId: int, now: int): (r: seq<Id>)
    ensures forall k :: k in r <==> k in db.schedules && Overdue(db.schedules[k], userId, now)
    ensures Increasing(r)
  {
    ScanKeys(db, MissedFilter(userId, now))
  }

  /** The missed query's `WHERE` clause. */
  predicate Overdue(s: Schedule, userId: int, now: int)
  {
    && s.userId == userId && s.endTime.Some? && s.endTime.value.unix < now
    && (s.status == Scheduled || s.status == InProgress)
  }

  /** The missed query's `WHERE` clause as a row filter. */
  function MissedFilter(userId: int, now: int): Schedule -> bool
  {
    (s: Schedule) => Overdue(s, userId, now)
  }

  /** The rows the missed query returns: those of `MissedKeys`, in that order, tasks attached. */
  function MissedCandidates(db: Db, userId: int, now: int): (r: seq<Schedule>)
    ensures forall i :: 0 <= i < |r| ==>
      && r[i].id in db.schedules && r[i] == Loaded(db, r[i].id) && r[i].userId == userId
      && r[i].endTime.Some? && r[i].endTime.value.unix < now
      && (r[i].status == Scheduled || r[i].status == InProgress)
    ensures forall k :: k in db.schedules && db.schedules[k].userId == userId
                        && db.schedules[k].endTime.Some? && db.schedules[k].endTime.value.unix < now
                        && (db.schedules[k].status == Scheduled || db.schedules[k].status == InProgress)
                        ==> exists i :: 0 <= i < |r| && r[i].id == k
    ensures forall i, j :: 0 <= i < j < |r| ==> r[i].id < r[j].id
  {
    Scan(db, MissedFilter(userId, now))
  }

  /** A schedule that was never clocked out is never a missed candidate. */
  lemma NeverClockedOutNeverMissed(db: Db, userId: int, now: int, k: Id)
    requires k in db.schedules && db.schedules[k].endTime.None?
    ensures forall s :: s in MissedCandidates(db, userId, now) ==> s.id != k
  {
  }

  /** Whether the loop writes `missed` for the i-th of candidates `c`, and the write succeeds. */
  predicate Written(c: seq<Schedule>, writeOk: seq<bool>, i: nat)
    requires i < |c|
  {
    c[i].status != Missed && WriteSucceeds(writeOk, i)
  }

  /** The ids of the first `n` candidates whose status write was issued and succeeded. */
  function Succeeded(c: seq<Schedule>, writeOk: seq<bool>, n: nat): set<Id>
    requires n <= |c|
  {
    set j | 0 <= j < n && Written(c, writeOk, j) :: c[j].id
  }

  /** The successful writes among the first `i + 1` candidates extend those among the first `i`. */
  lemma SucceededStep(c: seq<Schedule>, writeOk: seq<bool>, i: nat)
    requires i < |c|
    ensures Succeeded(c, writeOk, i + 1)
         == Succeeded(c, writeOk, i) + (if Written(c, writeOk, i) then {c[i].id} else {})
  {
    var lhs := Succeeded(c, writeOk, i + 1);
    var rhs := Succeeded(c, writeOk, i) + (if Written(c, writeOk, i) then {c[i].id} else {});
    forall k | k in lhs
      ensures k in rhs
    {
      var j :| 0 <= j < i + 1 && Written(c, writeOk, j) && c[j].id == k;
      if j < i {
        assert k in Succeeded(c, writeOk, i);
      }
    }
  }

  /** The store with the rows `ids` set to `missed`; nothing else changes. */
  function MarkMissed(db: Db, ids: set<Id>): (r: Db)
  {
    db.(schedules := map k | k in db.schedules :: if k in ids then db.schedules[k].(status := Missed) else db.schedules[k])
  }

  /**
   * After marking, a stored row is `missed` exactly when its key was marked
   * or it already was; no other column, no other row and no task changes.
   */
  lemma MarkMissedMarks(db: Db, ids: set<Id>, k: Id)
    requires k in db.schedules
    ensures var r := MarkMissed(db, ids);
      && r.tasks == db.tasks && r.schedules.Keys == db.schedules.Keys
      && (r.schedules[k].status == Missed <==> k in ids || db.schedules[k].status == Missed)
      && r.schedules[k].(status := db.schedules[k].status) == db.schedules[k]
  {
  }

  /** Marking no row changes nothing. */
  lemma MarkNothing(db: Db)
    ensures MarkMissed(db, {}) == db
  {
    assert MarkMissed(db, {}).schedules == db.schedules;
  }

  /** One more successful status write marks one more row. */
  lemma MarkOneMore(db: Db, ids: set<Id>, id: Id)
    requires id in db.schedules
    ensures var m := MarkMissed(db, ids);
      m.(schedules := m.schedules[id := m.schedules[id].(status := Missed)]) == MarkMissed(db, ids + {id})
  {
    var m := MarkMissed(db, ids);
    var lhs := m.(schedules := m.schedules[id := m.schedules[id].(status := Missed)]);
    var rhs := MarkMissed(db, ids + {id});
    assert lhs.schedules.Keys == rhs.schedules.Keys;
    forall k | k in lhs.schedules
      ensures lhs.schedules[k] == rhs.schedules[k]
    {
    }
    assert lhs.schedules == rhs.schedules;
  }

  /**
   * When no candidate is `missed` yet, every write is issued, so the rows
   * marked are exactly those whose write succeeded.
   */
  lemma NoneMissedYet(c: seq<Schedule>, writeOk: seq<bool>)
    requires forall i :: 0 <= i < |c| ==> c[i].status != Missed
    ensures forall i :: 0 <= i < |c| ==> Written(c, writeOk, i) == WriteSucceeds(writeOk, i)
    ensures Succeeded(c, writeOk, |c|) == set i | 0 <= i < |c| && WriteSucceeds(writeOk, i) :: c[i].id
  {
  }

  /**
   * What the reconcile hands to display conversion when no candidate is
   * `missed` yet: every candidate as a `missed` copy, and the store marked
   * for exactly the writes that succeeded.
   */
  lemma ReconciledForDisplay(c: seq<Schedule>, writeOk: seq<bool>, missed: seq<Schedule>, loc: Zone)
    requires forall i :: 0 <= i < |c| ==> c[i].status != Missed
    requires |missed| == |c|
    requires forall i :: 0 <= i < |c| ==> missed[i] == c[i].(status := Missed)
    ensures |DisplayAll(missed, loc)| == |c|
    ensures forall i :: 0 <= i < |c| ==> DisplayAll(missed, loc)[i] == ToZone(c[i].(status := Missed), loc)
    ensures Succeeded(c, writeOk, |c|) == set i | 0 <= i < |c| && WriteSucceeds(writeOk, i) :: c[i].id
  {
    NoneMissedYet(c, writeOk);
  }

  /**
   * The reconcile loop over a list of rows already selected: each row not
   * yet `missed` gets a status write, a failed write is skipped, and every
   * row is kept, in order. The ORM's single-column update copies the new
   * value into the row it is given while it builds the statement, before
   * the statement runs, so every row comes back `missed` whether or not its
   * write succeeded; the store holds `missed` only where it did.
   */
  method Reconcile(db: Db, candidates: seq<Schedule>, writeOk: seq<bool>) returns (missed: seq<Schedule>, db': Db)
    requires forall i :: 0 <= i < |candidates| ==> candidates[i].id in db.schedules
    ensures |missed| == |candidates|
    ensures forall i :: 0 <= i < |candidates| ==> missed[i] == candidates[i].(status := Missed)
    ensures db' == MarkMissed(db, Succeeded(candidates, writeOk, |candidates|))
  {
    missed := [];
    db' := db;
    MarkNothing(db);
    var i := 0;
    while i < |candidates|
      invariant 0 <= i <= |candidates|
      invariant |missed| == i
      invariant forall j :: 0 <= j < i ==> missed[j] == candidates[j].(status := Missed)
      invariant db' == MarkMissed(db, Succeeded(candidates, writeOk, i))
    {
      var s := candidates[i];
      SucceededStep(candidates, writeOk, i);
      if s.status != Missed {
        if WriteSucceeds(writeOk, i) {
          MarkOneMore(db, Succeeded(candidates, writeOk, i), s.id);
          db' := db'.(schedules := db'.schedules[s.id := db'.schedules[s.id].(status := Missed)]);
        }
        s := s.(status := Missed);
      }
      missed := missed + [s];
      i := i + 1;
    }
  }

  function TaskToZone(t: Task, loc: Zone): Task
  {
    t.(completedAt := OptionIn(t.completedAt, loc))
  }

  /**
   * The display copy of a schedule in location `loc`: every instant it
   * holds, including each task's completion instant, is the same instant
   * shown in `loc`; null instants stay null; nothing else differs.
   */
  function ToZone(s: Schedule, loc: Zone): (r: Schedule)
    ensures r.shiftTime.unix == s.shiftTime.unix && r.shiftTime.zone == loc
    ensures r.startTime.Some? <==> s.startTime.Some?
    ensures r.startTime.Some? ==> r.startTime.value.unix == s.startTime.value.unix && r.startTime.value.zone == loc
    ensures r.endTime.Some? <==> s.endTime.Some?
    ensures r.endTime.Some? ==> r.endTime.value.unix == s.endTime.value.unix && r.endTime.value.zone == loc
    ensures |r.tasks| == |s.tasks|
    ensures forall j :: 0 <= j < |s.tasks| ==>
      && (r.tasks[j].completedAt.Some? <==> s.tasks[j].completedAt.Some?)
      && (r.tasks[j].completedAt.Some? ==>
            r.tasks[j].completedAt.value.unix == s.tasks[j].completedAt.value.unix && r.tasks[j].completedAt.value.zone == loc)
      && r.tasks[j].(completedAt := s.tasks[j].completedAt) == s.tasks[j]
    ensures r.(shiftTime := s.shiftTime, startTime := s.startTime, endTime := s.endTime, tasks := s.tasks) == s
  {
    s.(shiftTime := In(In(s.shiftTime, Utc), loc),
       startTime := OptionIn(OptionIn(s.startTime, Utc), loc),
       endTime := OptionIn(OptionIn(s.endTime, Utc), loc),
       tasks := seq(|s.tasks|, j requires 0 <= j < |s.tasks| => TaskToZone(TaskToZone(s.tasks[j], Utc), loc)))
  }

  /**
   * Display conversion loses nothing: converting a UTC record to any
   * location and back to UTC gives the record again.
   */
  lemma ToZoneRoundTrip(s: Schedule, loc: Zone)
    requires AllIn(s, Utc)
    ensures AllIn(ToZone(s, loc), loc)
    ensures ToZone(ToZone(s, loc), Utc) == s
  {
    var back := ToZone(ToZone(s, loc), Utc);
    assert back.tasks == s.tasks;
  }

  /**
   * Every row a query returns can be shown in any location and converted
   * back to UTC without loss.
   */
  lemma {:induction false} QueriedRowRoundTrips(db: Db, k: Id, loc: Zone)
    requires k in db.schedules
    ensures AllIn(ToZone(Loaded(db, k), loc), loc)
    ensures ToZone(ToZone(Loaded(db, k), loc), Utc) == Loaded(db, k)
  {
    LoadedIsUtc(db, k);
    ToZoneRoundTrip(Loaded(db, k), loc);
  }

  /** The display copies of a list of schedules, in the same order. */
  function DisplayAll(xs: seq<Schedule>, loc: Zone): (r: seq<Schedule>)
    ensures |r| == |xs|
    ensures forall i :: 0 <= i < |xs| ==> r[i] == ToZone(xs[i], loc)
  {
    seq(|xs|, i requires 0 <= i < |xs| => ToZone(xs[i], loc))
  }

  /**
   * The missed-schedule query with its reconcile. A failed query returns an
   * error and writes nothing. Otherwise every candidate is returned, in query
   * order, as a `missed` display copy in `loc`; the store holds `missed` for
   * exactly the candidates whose write succeeded, one whose write failed
   * keeps its status there, and no failure stops the loop. No other row and
   * no task changes.
   */
  method GetMissedSchedules(db: Db, userId: int, now: int, loc: Zone, queryOk: bool, writeOk: seq<bool>)
    returns (r: Result<seq<Schedule>, DbError>, db': Db)
    ensures !queryOk ==> r == Failure(StoreFault) && db' == db
    ensures queryOk ==> r.Success?
    ensures queryOk ==>
      var c := MissedCandidates(db, userId, now);
      && |r.value| == |c|
      && (forall i :: 0 <= i < |c| ==> r.value[i] == ToZone(c[i].(status := Missed), loc) && r.value[i].status == Missed)
      && db' == MarkMissed(db, set i | 0 <= i < |c| && WriteSucceeds(writeOk, i) :: c[i].id)
  {
    if !queryOk {
      return Failure(StoreFault), db;
    }
    var candidates := MissedCandidates(db, userId, now);
    var missed;
    missed, db' := Reconcile(db, candidates, writeOk);
    ReconciledForDisplay(candidates, writeOk, missed, loc);
    r := Success(DisplayAll(missed, loc));
  }

  /** Marking every key the missed query selects leaves it nothing to select. */
  lemma {:induction false} MarkingEmptiesQuery(db: Db, userId: int, now: int, ids: set<Id>)
    requires forall k :: k in MissedKeys(db, userId, now) ==> k in ids
    ensures MissedKeys(MarkMissed(db, ids), userId, now) == []
  {
    var after := MarkMissed(db, ids);
    forall k | k in after.schedules
      ensures !Overdue(after.schedules[k], userId, now)
    {
      if k !in ids {
        assert after.schedules[k] == db.schedules[k];
      }
    }
    var ks := MissedKeys(after, userId, now);
    if ks != [] {
      HeadIsMember(ks);
      assert false;
    }
  }

  /**
   * Once every write of a reconcile has succeeded, the same query at the same
   * instant finds nothing, so a second call returns an empty list and writes
   * nothing: `missed` is outside the filter.
   */
  lemma SecondReconcileIsEmpty(db: Db, userId: int, now: int, writeOk: seq<bool>)
    requires forall i :: 0 <= i < |MissedCandidates(db, userId, now)| ==> WriteSucceeds(writeOk, i)
    ensures var c := MissedCandidates(db, userId, now);
      var after := MarkMissed(db, set i | 0 <= i < |c| && WriteSucceeds(writeOk, i) :: c[i].id);
      && MissedCandidates(after, userId, now) == []
      && MarkMissed(after, {}) == after
  {
    var f := MissedFilter(userId, now);
    var c := MissedCandidates(db, userId, now);
    var ks := MissedKeys(db, userId, now);
    var ids := set i | 0 <= i < |c| && WriteSucceeds(writeOk, i) :: c[i].id;
    assert c == Scan(db, f) == LoadAll(db, ks);
    forall k | k in ks
      ensures k in ids
    {
      var i :| 0 <= i < |ks| && ks[i] == k;
      assert c[i].id == k && WriteSucceeds(writeOk, i);
    }
    MarkingEmptiesQuery(db, userId, now, ids);
    var after := MarkMissed(db, ids);
    assert MissedCandidates(after, userId, now) == Scan(after, f) == LoadAll(after, []);
    MarkNothing(after);
  }
}

=== FILE: store.dfy ===
/**
 * The relational store the services talk to, reduced to two tables keyed by
 * primary key, and the scans the queries are built from. A scan returns rows
 * in ascending primary-key order with their tasks attached, which is what the
 * ORM's `Preload("Tasks")` does.
 *
 * A `datetime` column keeps no zone, and the connection reads every one back
 * as a UTC `time.Time`: whatever zone an instant was written in, a row read
 * from the store shows it in UTC.
 */
module Store {
  import opened Wrappers
  import opened Ids
  import opened Instants
  import opened Models

  /** The schedules table and the tasks table. A row's id is its key. */
  datatype Db = Db(schedules: map<Id, Schedule>, tasks: map<Id, Task>)

  /** The errors the store reports. */
  datatype DbError =
    | RecordNotFound        // a First() lookup found no row
    | DuplicatedKey         // the ORM's duplicated-key error, which a service returns itself
    | UniqueViolation       // the driver's error for a value a unique index already holds
    | EnumViolation         // a value outside a column's enum type
    | ForeignKeyViolation   // a task names a schedule that does not exist
    | IdsExhausted          // the auto-increment range is used up
    | StoreFault            // any other failure of a statement

  /**
   * Whether the i-th of a sequence of statements succeeds, given the
   * outcomes `oks` the environment chose; a missing entry is a failure.
   */
  predicate WriteSucceeds(oks: seq<bool>, i: nat)
  {
    i < |oks| && oks[i]
  }

  /** Every instant a schedule holds, its tasks' included, is shown in `loc`. */
  predicate AllIn(s: Schedule, loc: Zone)
  {
    && s.shiftTime.zone == loc
    && (s.startTime.Some? ==> s.startTime.value.zone == loc)
    && (s.endTime.Some? ==> s.endTime.value.zone == loc)
    && forall j :: 0 <= j < |s.tasks| && s.tasks[j].completedAt.Some? ==> s.tasks[j].completedAt.value.zone == loc
  }

  /**
   * A schedule row's own columns as a read gives them back: the same
   * instants, each shown in UTC; nothing else differs.
   */
  function ReadBack(s: Schedule): (r: Schedule)
    ensures r.shiftTime.unix == s.shiftTime.unix && r.shiftTime.zone == Utc
    ensures r.startTime.Some? <==> s.startTime.Some?
    ensures r.startTime.Some? ==> r.startTime.value.unix == s.startTime.value.unix && r.startTime.value.zone == Utc
    ensures r.endTime.Some? <==> s.endTime.Some?
    ensures r.endTime.Some? ==> r.endTime.value.unix == s.endTime.value.unix && r.endTime.value.zone == Utc
    ensures r.(shiftTime := s.shiftTime, startTime := s.startTime, endTime := s.endTime) == s
  {
    s.(shiftTime := In(s.shiftTime, Utc), startTime := OptionIn(s.startTime, Utc), endTime := OptionIn(s.endTime, Utc))
  }

  /**
   * The task stored under key `k` as a read gives it back: its id taken from
   * the key, its completion instant shown in UTC.
   */
  function TaskRow(db: Db, k: Id): (r: Task)
    requires k in db.tasks
    ensures r.id == k
    ensures r.completedAt.Some? <==> db.tasks[k].completedAt.Some?
    ensures r.completedAt.Some? ==>
      r.completedAt.value.unix == db.tasks[k].completedAt.value.unix && r.completedAt.value.zone == Utc
    ensures r.(id := db.tasks[k].id, completedAt := db.tasks[k].completedAt) == db.tasks[k]
  {
    db.tasks[k].(id := k, completedAt := OptionIn(db.tasks[k].completedAt, Utc))
  }

  /** The keys among `ks` (in that order) of the tasks of schedule `sid`. */
  function TaskKeys(db: Db, ks: seq<Id>, sid: Id): (r: seq<Id>)
    requires forall i :: 0 <= i < |ks| ==> ks[i] in db.tasks
    ensures forall k :: k in r ==> k in ks && k in db.tasks && db.tasks[k].scheduleId == sid
    ensures forall k :: k in ks && k in db.tasks && db.tasks[k].scheduleId == sid ==> k in r
    ensures Increasing(ks) ==> Increasing(r)
  {
    if ks == [] then []
    else
      var rest := TaskKeys(db, ks[1..], sid);
      assert forall k :: k in ks[1..] ==> k in ks;
      if db.tasks[ks[0]].scheduleId == sid then
        IncreasingTail(ks);
        ConsIncreasing(ks[0], rest);
        [ks[0]] + rest
      else rest
  }

  /** The tasks stored under keys `ks`, in that order. */
  function LoadTasks(db: Db, ks: seq<Id>): (r: seq<Task>)
    requires forall k :: k in ks ==> k in db.tasks
    ensures |r| == |ks|
    ensures forall i :: 0 <= i < |ks| ==> r[i] == TaskRow(db, ks[i]) && r[i].id == ks[i]
  {
    if ks == [] then [] else [TaskRow(db, ks[0])] + LoadTasks(db, ks[1..])
  }

  /** The tasks of schedule `sid`, each once, in ascending id order. */
  function TasksOf(db: Db, sid: Id): (r: seq<Task>)
    ensures forall i :: 0 <= i < |r| ==> r[i].id in db.tasks && r[i] == TaskRow(db, r[i].id) && r[i].scheduleId == sid
    ensures forall k :: k in db.tasks && db.tasks[k].scheduleId == sid ==> exists i :: 0 <= i < |r| && r[i].id == k
    ensures forall i, j :: 0 <= i < j < |r| ==> r[i].id < r[j].id
  {
    var ks := TaskKeys(db, Ascending(db.tasks.Keys), sid);
    assert Increasing(ks);
    LoadTasks(db, ks)
  }

  /**
   * The schedule stored under key `k` as a query returns it: id from the
   * key, instants shown in UTC, tasks attached.
   */
  function Loaded(db: Db, k: Id): (r: Schedule)
    requires k in db.schedules
    ensures r.id == k
  {
    ReadBack(db.schedules[k]).(id := k, tasks := TasksOf(db, k))
  }

  /** Every row a query returns shows all its instants, its tasks' included, in UTC. */
  lemma {:induction false} LoadedIsUtc(db: Db, k: Id)
    requires k in db.schedules
    ensures AllIn(Loaded(db, k), Utc)
  {
    var ts := TasksOf(db, k);
    assert forall j :: 0 <= j < |ts| ==> ts[j] == TaskRow(db, ts[j].id);
  }

  /** The keys among `ks` (in that order) whose stored rows satisfy `keep`. */
  function SelectKeys(db: Db, ks: seq<Id>, keep: Schedule -> bool): (r: seq<Id>)
    requires forall i :: 0 <= i < |ks| ==> ks[i] in db.schedules
    ensures forall k :: k in r ==> k in ks && k in db.schedules && keep(db.schedules[k])
    ensures forall k :: k in ks && k in db.schedules && keep(db.schedules[k]) ==> k in r
    ensures Increasing(ks) ==> Increasing(r)
  {
    if ks == [] then []
    else
      var rest := SelectKeys(db, ks[1..], keep);
      assert forall k :: k in ks[1..] ==> k in ks;
      if keep(db.schedules[ks[0]]) then
        IncreasingTail(ks);
        ConsIncreasing(ks[0], rest);
        [ks[0]] + rest
      else rest
  }

  /** The rows stored under keys `ks`, loaded, in that order. */
  function LoadAll(db: Db, ks: seq<Id>): (r: seq<Schedule>)
    requires forall k :: k in ks ==> k in db.schedules
    ensures |r| == |ks|
    ensures forall i :: 0 <= i < |ks| ==> r[i] == Loaded(db, ks[i]) && r[i].id == ks[i]
  {
    if ks == [] then [] else [Loaded(db, ks[0])] + LoadAll(db, ks[1..])
  }

  /**
   * The keys a WHERE clause `keep` selects from the schedules table: every
   * key whose stored row satisfies it, each once, ascending.
   */
  function ScanKeys(db: Db, keep: Schedule -> bool): (r: seq<Id>)
    ensures forall k :: k in r ==> k in db.schedules && keep(db.schedules[k])
    ensures forall k :: k in db.schedules && keep(db.schedules[k]) ==> k in r
    ensures Increasing(r)
  {
    SelectKeys(db, Ascending(db.schedules.Keys), keep)
  }

  /**
   * A scan of the schedules table: every row whose stored columns satisfy
   * `keep` (a WHERE clause), each once, in ascending id order, loaded.
   */
  function Scan(db: Db, keep: Schedule -> bool): (r: seq<Schedule>)
    ensures forall i :: 0 <= i < |r| ==> r[i].id in db.schedules && r[i] == Loaded(db, r[i].id) && keep(db.schedules[r[i].id])
    ensures forall k :: k in db.schedules && keep(db.schedules[k]) ==> exists i :: 0 <= i < |r| && r[i].id == k
    ensures forall i, j :: 0 <= i < j < |r| ==> r[i].id < r[j].id
  {
    LoadAll(db, ScanKeys(db, keep))
  }
}

=== FILE: tasks.dfy ===
/**
 * The task service: inserting a task, assigning a batch of tasks to a
 * schedule inside one transaction, deleting, saving (upsert), looking up a
 * task's schedule and overwriting a task's status fields; plus the store's
 * cascade from a schedule to its tasks and the referential integrity every
 * operation keeps.
 *
 * Whether an insert or update statement succeeds is chosen by the
 * environment and passed in as a boolean (`ok`, or one entry of `createOk`
 * per task of a batch).
 */
module TaskService {
  import opened Wrappers
  import opened Ids
  import opened Instants
  import opened Models
  import opened Store
  import opened Collation

  // ----- Rows --------------------------------------------------------------

  /**
   * The status an inserted task row stores: the column default when the
   * request leaves it empty, otherwise the enum member the name selects, if
   * the column's enum has one.
   */
  function InsertStatus(name: string): (r: Option<TaskStatus>)
    ensures name == "" ==> r == Some(TaskNotCompleted)
    ensures name != "" ==> (r.Some? <==> Admits(TaskEnum, name))
    ensures name != "" && r.Some? ==> Selects(TaskEnum, name, TaskStatusName(r.value))
  {
    if name == "" then Some(DefaultTaskStatus) else EnumTaskStatus(name)
  }

  /** The row a request stores under key `id` with status `status`. */
  function NewTask(id: Id, t: TaskInput, status: TaskStatus): Task
  {
    Task(id, t.scheduleId, t.description, status, t.reason, t.completedAt)
  }

  /** Row `row` carries every column of request `t`, the status as `status`. */
  predicate Holds(row: Task, t: TaskInput, status: Option<TaskStatus>)
  {
    && row.scheduleId == t.scheduleId
    && row.description == t.description
    && Some(row.status) == status
    && row.reason == t.reason
    && row.completedAt == t.completedAt
  }

  /** Row `row` carries every column of batch entry `t`, bound to schedule `sid`. */
  predicate BoundTo(row: Task, t: TaskInput, sid: Id)
  {
    Holds(row, t.(scheduleId := sid), InsertStatus(t.status))
  }

  /** Every task names a schedule that exists: what the foreign key keeps. */
  predicate Consistent(db: Db)
  {
    forall k :: k in db.tasks ==> db.tasks[k].scheduleId in db.schedules
  }

  // ----- Create ------------------------------------------------------------

  /**
   * Inserts one task under the next auto-increment key. The statement fails
   * as the environment says; otherwise a status outside the enum and a
   * schedule id with no schedule are refused by the store.
   */
  function CreateTask(db: Db, t: TaskInput, ok: bool): (r: Result<(Id, Db), DbError>)
    ensures r.Success? <==>
      ok && InsertStatus(t.status).Some? && t.scheduleId in db.schedules && NextId(db.tasks.Keys).Some?
    ensures r.Failure? ==>
      r.error == (if !ok then StoreFault
                  else if InsertStatus(t.status).None? then EnumViolation
                  else if t.scheduleId !in db.schedules then ForeignKeyViolation
                  else IdsExhausted)
    ensures r.Success? ==>
      var (id, db') := r.value;
      && id !in db.tasks
      && (forall k :: k in db.tasks ==> k < id)
      && db'.schedules == db.schedules
      && id in db'.tasks
      && db'.tasks == db.tasks[id := db'.tasks[id]]
      && Holds(db'.tasks[id], t, InsertStatus(t.status))
  {
    Insert(db, t, ok)
  }

  /** The insert statement itself, which `CreateTask` describes. */
  function Insert(db: Db, t: TaskInput, ok: bool): Result<(Id, Db), DbError>
  {
    if !ok then Failure(StoreFault)
    else match InsertStatus(t.status)
      case None => Failure(EnumViolation)
      case Some(status) =>
        if t.scheduleId !in db.schedules then Failure(ForeignKeyViolation)
        else match NextId(db.tasks.Keys)
          case None => Failure(IdsExhausted)
          case Some(id) => Success((id, db.(tasks := db.tasks[id := NewTask(id, t, status)])))
  }

  /** The i-th insert of a batch goes through unless the environment fails it or its status is refused. */
  predicate Accepted(batch: seq<TaskInput>, createOk: seq<bool>, i: nat)
    requires i < |batch|
  {
    WriteSucceeds(createOk, i) && InsertStatus(batch[i].status).Some?
  }

  /** The error the i-th insert of a batch reports when it is not accepted. */
  function Rejection(createOk: seq<bool>, i: nat): DbError
  {
    if WriteSucceeds(createOk, i) then EnumViolation else StoreFault
  }

  /**
   * The inserts of a batch from position `i` on, each task bound to schedule
   * `sid`, stopping at the first failure; a failure carries no store, so
   * nothing of the batch survives it.
   */
  function CreateBatch(db: Db, sid: Id, batch: seq<TaskInput>, createOk: seq<bool>, i: nat)
    : (r: Result<(seq<Id>, Db), DbError>)
    requires i <= |batch|
    ensures r.Success? ==> |r.value.0| == |batch| - i
    ensures r.Success? ==> forall j :: i <= j < |batch| ==> Accepted(batch, createOk, j)
    decreases |batch| - i
  {
    if i == |batch| then Success(([], db))
    else
      match Insert(db, batch[i].(scheduleId := sid), WriteSucceeds(createOk, i))
      case Failure(e) => Failure(e)
      case Success((id, db1)) =>
        match CreateBatch(db1, sid, batch, createOk, i + 1)
        case Failure(e) => Failure(e)
        case Success((ids, db2)) => Success(([id] + ids, db2))
  }

  /**
   * `db'` is `db` with one new task row per entry of `batch[i..]`, bound to
   * schedule `sid`, under the fresh increasing keys `ids`; no schedule and no
   * earlier task changes.
   */
  predicate AddedInOrder(db: Db, db': Db, ids: seq<Id>, batch: seq<TaskInput>, i: nat, sid: Id)
    requires i <= |batch|
  {
    && |ids| == |batch| - i
    && Increasing(ids)
    && db'.schedules == db.schedules
    && (forall k :: k in db.tasks ==> k in db'.tasks && db'.tasks[k] == db.tasks[k])
    && (forall k :: k in db'.tasks && k !in db.tasks ==> exists j :: 0 <= j < |ids| && ids[j] == k)
    && (forall j, k :: 0 <= j < |ids| && k in db.tasks ==> k < ids[j])
    && (forall j :: 0 <= j < |ids| ==> ids[j] in db'.tasks && BoundTo(db'.tasks[ids[j]], batch[i + j], sid))
  }

  /** The keys new in `db2` relative to `db` are `id` and those new relative to `db1`. */
  lemma {:induction false} StepNewKeys(db: Db, db1: Db, db2: Db, id: Id, rest: seq<Id>)
    requires forall k :: k in db1.tasks ==> k in db.tasks || k == id
    requires forall k :: k in db2.tasks && k !in db1.tasks ==> exists j :: 0 <= j < |rest| && rest[j] == k
    ensures forall k :: k in db2.tasks && k !in db.tasks ==> exists j :: 0 <= j < |[id] + rest| && ([id] + rest)[j] == k
  {
    var ids := [id] + rest;
    forall k | k in db2.tasks && k !in db.tasks
      ensures exists j :: 0 <= j < |ids| && ids[j] == k
    {
      if k == id {
        assert ids[0] == k;
      } else {
        var j :| 0 <= j < |rest| && rest[j] == k;
        assert ids[j + 1] == k;
      }
    }
  }

  /** Every old key lies below `id` and below every later key. */
  lemma {:induction false} StepBelow(db: Db, db1: Db, id: Id, rest: seq<Id>)
    requires forall k :: k in db.tasks ==> k in db1.tasks
    requires forall k :: k in db.tasks ==> k < id
    requires forall j, k :: 0 <= j < |rest| && k in db1.tasks ==> k < rest[j]
    ensures forall j, k :: 0 <= j < |[id] + rest| && k in db.tasks ==> k < ([id] + rest)[j]
  {
    var ids := [id] + rest;
    forall j, k | 0 <= j < |ids| && k in db.tasks
      ensures k < ids[j]
    {
      if j > 0 {
        assert ids[j] == rest[j - 1] && k in db1.tasks;
      }
    }
  }

  /** The row under `id` and the rows under `rest` are bound to consecutive batch entries. */
  lemma {:induction false} StepBound(db1: Db, db2: Db, id: Id, rest: seq<Id>, batch: seq<TaskInput>, i: nat, sid: Id)
    requires i < |batch| && |rest| == |batch| - (i + 1)
    requires forall k :: k in db1.tasks ==> k in db2.tasks && db2.tasks[k] == db1.tasks[k]
    requires id in db1.tasks && BoundTo(db1.tasks[id], batch[i], sid)
    requires forall j :: 0 <= j < |rest| ==> rest[j] in db2.tasks && BoundTo(db2.tasks[rest[j]], batch[i + 1 + j], sid)
    ensures forall j :: 0 <= j < |[id] + rest| ==>
      ([id] + rest)[j] in db2.tasks && BoundTo(db2.tasks[([id] + rest)[j]], batch[i + j], sid)
  {
    var ids := [id] + rest;
    forall j | 0 <= j < |ids|
      ensures ids[j] in db2.tasks && BoundTo(db2.tasks[ids[j]], batch[i + j], sid)
    {
      if j > 0 {
        assert ids[j] == rest[j - 1] && i + j == i + 1 + (j - 1);
      }
    }
  }

  /** One insert in front of a batch that went through extends the batch's additions by its row. */
  lemma {:induction false} AddStep(db: Db, db1: Db, db2: Db, id: Id, rest: seq<Id>, batch: seq<TaskInput>, i: nat, sid: Id)
    requires i < |batch|
    requires id !in db.tasks && (forall k :: k in db.tasks ==> k < id)
    requires db1.schedules == db.schedules && id in db1.tasks && db1.tasks == db.tasks[id := db1.tasks[id]]
    requires BoundTo(db1.tasks[id], batch[i], sid)
    requires AddedInOrder(db1, db2, rest, batch, i + 1, sid)
    ensures AddedInOrder(db, db2, [id] + rest, batch, i, sid)
  {
    assert forall k :: k in db.tasks ==> k in db1.tasks && db1.tasks[k] == db.tasks[k];
    assert forall k :: k in db1.tasks ==> k in db.tasks || k == id;
    ConsIncreasing(id, rest);
    StepNewKeys(db, db1, db2, id, rest);
    StepBelow(db, db1, id, rest);
    StepBound(db1, db2, id, rest, batch, i, sid);
  }

  /** A batch that goes through adds exactly its rows, in order, bound to `sid`. */
  lemma {:induction false} BatchAdds(db: Db, sid: Id, batch: seq<TaskInput>, createOk: seq<bool>, i: nat)
    requires i <= |batch|
    requires CreateBatch(db, sid, batch, createOk, i).Success?
    ensures var (ids, db') := CreateBatch(db, sid, batch, createOk, i).value;
      AddedInOrder(db, db', ids, batch, i, sid)
    decreases |batch| - i
  {
    if i < |batch| {
      var t := batch[i].(scheduleId := sid);
      var first := CreateTask(db, t, WriteSucceeds(createOk, i));
      assert first == Insert(db, t, WriteSucceeds(createOk, i));
      var (id, db1) := first.value;
      BatchAdds(db1, sid, batch, createOk, i + 1);
      var (rest, db2) := CreateBatch(db1, sid, batch, createOk, i + 1).value;
      assert CreateBatch(db, sid, batch, createOk, i).value == ([id] + rest, db2);
      assert t.status == batch[i].status;
      AddStep(db, db1, db2, id, rest, batch, i, sid);
    }
  }

  /** A batch whose every entry is accepted goes through unless the keys run out. */
  lemma {:induction false} BatchIfAccepted(db: Db, sid: Id, batch: seq<TaskInput>, createOk: seq<bool>, i: nat)
    requires sid in db.schedules
    requires i <= |batch|
    requires forall j :: i <= j < |batch| ==> Accepted(batch, createOk, j)
    ensures var r := CreateBatch(db, sid, batch, createOk, i); r.Success? || r.error == IdsExhausted
    decreases |batch| - i
  {
    if i < |batch| {
      var t := batch[i].(scheduleId := sid);
      var first := CreateTask(db, t, WriteSucceeds(createOk, i));
      assert first == Insert(db, t, WriteSucceeds(createOk, i));
      assert t.status == batch[i].status && t.scheduleId in db.schedules;
      if first.Failure? {
        assert CreateBatch(db, sid, batch, createOk, i) == Failure(first.error);
        assert Accepted(batch, createOk, i);
      } else {
        var (id, db1) := first.value;
        BatchIfAccepted(db1, sid, batch, createOk, i + 1);
        var rest := CreateBatch(db1, sid, batch, createOk, i + 1);
        if rest.Failure? {
          assert CreateBatch(db, sid, batch, createOk, i) == Failure(rest.error);
        }
      }
    }
  }

  /**
   * A batch that fails for any reason but key exhaustion reports the error
   * of its first rejected entry.
   */
  lemma {:induction false} BatchFailsAtFirstRejection(db: Db, sid: Id, batch: seq<TaskInput>, createOk: seq<bool>, i: nat)
    requires sid in db.schedules
    requires i <= |batch|
    ensures var r := CreateBatch(db, sid, batch, createOk, i);
      r.Failure? && r.error != IdsExhausted ==>
        exists j :: i <= j < |batch| && !Accepted(batch, createOk, j) && r.error == Rejection(createOk, j)
                    && forall m :: i <= m < j ==> Accepted(batch, createOk, m)
    decreases |batch| - i
  {
    if i < |batch| {
      var t := batch[i].(scheduleId := sid);
      var first := CreateTask(db, t, WriteSucceeds(createOk, i));
      assert first == Insert(db, t, WriteSucceeds(createOk, i));
      assert t.status == batch[i].status && t.scheduleId in db.schedules;
      if first.Failure? {
        assert CreateBatch(db, sid, batch, createOk, i) == Failure(first.error);
        assert first.error != IdsExhausted ==> !Accepted(batch, createOk, i) && first.error == Rejection(createOk, i);
      } else {
        var (id, db1) := first.value;
        BatchFailsAtFirstRejection(db1, sid, batch, createOk, i + 1);
        var rest := CreateBatch(db1, sid, batch, createOk, i + 1);
        assert Accepted(batch, createOk, i);
        if rest.Failure? {
          assert CreateBatch(db, sid, batch, createOk, i) == Failure(rest.error);
        }
      }
    }
  }

  /**
   * Assigns a batch of tasks to schedule `sid` in one transaction. The
   * schedule is looked up first: a failed lookup is a store fault and an
   * unknown schedule is not-found, and neither creates anything. Otherwise
   * every task is bound to `sid`, whatever schedule id it carried, and
   * inserted in order; the first failing insert rolls the whole batch back,
   * and so does a failed commit (`commitOk`). The new keys are returned in
   * batch order.
   */
  function AssignTasksToSchedule(db: Db, sid: Id, batch: seq<TaskInput>, createOk: seq<bool>,
                                 lookupOk: bool, commitOk: bool)
    : (r: Result<(seq<Id>, Db), DbError>)
    ensures !lookupOk ==> r == Failure(StoreFault)
    ensures lookupOk && sid !in db.schedules ==> r == Failure(RecordNotFound)
    ensures lookupOk && sid in db.schedules && (exists j :: 0 <= j < |batch| && !Accepted(batch, createOk, j)) ==>
              r.Failure?
    ensures lookupOk && sid in db.schedules && !commitOk ==> r.Failure?
    ensures lookupOk && commitOk && sid in db.schedules && (forall j :: 0 <= j < |batch| ==> Accepted(batch, createOk, j)) ==>
              r.Success? || r.error == IdsExhausted
    ensures r.Success? ==> lookupOk && commitOk && sid in db.schedules && AddedInOrder(db, r.value.1, r.value.0, batch, 0, sid)
    ensures r.Success? ==>
      var (ids, db') := r.value;
      forall j :: 0 <= j < |ids| ==> ids[j] !in db.tasks && ids[j] in db'.tasks && db'.tasks[ids[j]].scheduleId == sid
  {
    if !lookupOk then Failure(StoreFault)
    else if sid !in db.schedules then Failure(RecordNotFound)
    else
      var r := CreateBatch(db, sid, batch, createOk, 0);
      if r.Failure? then
        (if forall j :: 0 <= j < |batch| ==> Accepted(batch, createOk, j) then BatchIfAccepted(db, sid, batch, createOk, 0); r
         else r)
      else if !commitOk then Failure(StoreFault)
      else
        BatchAdds(db, sid, batch, createOk, 0);
        r
  }

  /** Assigning an empty batch to an existing schedule succeeds and changes nothing. */
  lemma AssignNothing(db: Db, sid: Id, createOk: seq<bool>)
    requires sid in db.schedules
    ensures AssignTasksToSchedule(db, sid, [], createOk, true, true) == Success(([], db))
  {
  }

  // ----- Delete ------------------------------------------------------------

  /**
   * Removes the task with that key, if any; no other row changes. A key
   * with no row is no error. The statement fails as the environment says,
   * and then nothing changes.
   */
  function DeleteTask(db: Db, id: Id, ok: bool): (r: Result<Db, DbError>)
    ensures r.Success? <==> ok
    ensures r.Failure? ==> r.error == StoreFault
    ensures r.Success? ==>
      && r.value.schedules == db.schedules
      && r.value.tasks.Keys == db.tasks.Keys - {id}
      && (forall k :: k in r.value.tasks ==> r.value.tasks[k] == db.tasks[k])
  {
    if !ok then Failure(StoreFault) else Success(db.(tasks := db.tasks - {id}))
  }

  /** Deleting the task an insert created gives back the store before the insert. */
  lemma {:induction false} DeleteUndoesCreate(db: Db, t: TaskInput, ok: bool)
    requires CreateTask(db, t, ok).Success?
    ensures var (id, db') := CreateTask(db, t, ok).value; DeleteTask(db', id, true) == Success(db)
  {
    var (id, db') := CreateTask(db, t, ok).value;
    RemoveAdded(db.tasks, id, db'.tasks[id]);
    assert DeleteTask(db', id, true).value.tasks == db.tasks;
  }

  /** Removing a key just added to a map that lacked it gives the map back. */
  lemma RemoveAdded(m: map<Id, Task>, k: Id, v: Task)
    requires k !in m
    ensures m[k := v] - {k} == m
  {
    assert (m[k := v] - {k}).Keys == m.Keys;
  }

  // ----- Save --------------------------------------------------------------

  /**
   * The status a save under a non-zero key stores. When the row exists the
   * update writes every column, so an empty status is written as given and
   * refused. When no row matches, the update changes nothing and the ORM
   * falls back to an insert, where an empty status takes the column default.
   */
  function SaveStatus(db: Db, id: Id, name: string): (r: Option<TaskStatus>)
    ensures id in db.tasks ==> r == EnumTaskStatus(name)
    ensures id !in db.tasks ==> r == InsertStatus(name)
  {
    if id in db.tasks then EnumTaskStatus(name) else InsertStatus(name)
  }

  /**
   * Saves a task under key `id`. Key 0 is an insert under the next
   * auto-increment key. Any other key writes every column under that key:
   * an update when the row exists, where an empty status is refused as any
   * other status outside the enum is, and otherwise an insert, where an
   * empty status takes the default.
   */
  function UpdateTask(db: Db, id: Id, t: TaskInput, ok: bool): (r: Result<(Id, Db), DbError>)
    ensures id == 0 ==> r == CreateTask(db, t, ok)
    ensures id != 0 ==>
      (r.Success? <==> ok && t.scheduleId in db.schedules && (Admits(TaskEnum, t.status) || (id !in db.tasks && t.status == "")))
    ensures id != 0 && ok && id in db.tasks && t.status == "" ==> r == Failure(EnumViolation)
    ensures id != 0 && r.Success? ==>
      var (key, db') := r.value;
      && key == id
      && db'.schedules == db.schedules
      && db'.tasks.Keys == db.tasks.Keys + {id}
      && (forall k :: k in db.tasks && k != id ==> db'.tasks[k] == db.tasks[k])
    ensures id != 0 && id in db.tasks && r.Success? ==> Holds(r.value.1.tasks[id], t, EnumTaskStatus(t.status))
    ensures id != 0 && id !in db.tasks && r.Success? ==> Holds(r.value.1.tasks[id], t, InsertStatus(t.status))
  {
    if id == 0 then CreateTask(db, t, ok)
    else if !ok then Failure(StoreFault)
    else match SaveStatus(db, id, t.status)
      case None => Failure(EnumViolation)
      case Some(status) =>
        if t.scheduleId !in db.schedules then Failure(ForeignKeyViolation)
        else Success((id, db.(tasks := db.tasks[id := NewTask(id, t, status)])))
  }

  /**
   * Saving the same task under the same non-zero key twice is saving it
   * once, unless its status is empty: then the first save can only have
   * inserted the row with the default, and the second, now an update,
   * writes the empty status and is refused.
   */
  lemma {:induction false} SaveIsIdempotent(db: Db, id: Id, t: TaskInput)
    requires id != 0
    requires UpdateTask(db, id, t, true).Success?
    ensures var (_, db') := UpdateTask(db, id, t, true).value;
      t.status != "" ==> UpdateTask(db', id, t, true) == Success((id, db'))
    ensures var (_, db') := UpdateTask(db, id, t, true).value;
      t.status == "" ==> id !in db.tasks && UpdateTask(db', id, t, true) == Failure(EnumViolation)
  {
    var (_, db') := UpdateTask(db, id, t, true).value;
    if t.status != "" {
      var status := EnumTaskStatus(t.status).value;
      assert db'.tasks[id := NewTask(id, t, status)] == db'.tasks;
    }
  }

  // ----- Lookups and status ------------------------------------------------

  /**
   * The schedule a task belongs to, looked up by the task's schedule id.
   * The schedule comes without its tasks (nothing is preloaded) and with its
   * instants shown in UTC. A missing row at either lookup is not-found; a
   * failed statement (`taskOk`, `scheduleOk`) is a store fault, and the
   * second statement runs only after the first found the task.
   */
  function GetScheduleByTaskID(db: Db, taskId: Id, taskOk: bool, scheduleOk: bool): (r: Result<Schedule, DbError>)
    ensures r.Success? <==>
      taskOk && scheduleOk && taskId in db.tasks && db.tasks[taskId].scheduleId in db.schedules
    ensures r.Failure? ==>
      r.error == (if !taskOk || (taskId in db.tasks && !scheduleOk) then StoreFault else RecordNotFound)
    ensures r.Success? ==>
      var sid := db.tasks[taskId].scheduleId;
      && r.value.id == sid
      && r.value == Loaded(db, sid).(tasks := [])
      && AllIn(r.value, Utc)
  {
    if !taskOk then Failure(StoreFault)
    else if taskId !in db.tasks then Failure(RecordNotFound)
    else
      var sid := db.tasks[taskId].scheduleId;
      if !scheduleOk then Failure(StoreFault)
      else if sid !in db.schedules then Failure(RecordNotFound)
      else Success(ReadBack(db.schedules[sid]).(id := sid, tasks := []))
  }

  /** In a consistent store every task leads back to a schedule. */
  lemma EveryTaskHasSchedule(db: Db, taskId: Id)
    requires Consistent(db) && taskId in db.tasks
    ensures GetScheduleByTaskID(db, taskId, true, true).Success?
  {
  }

  /**
   * Each task of a successful assignment leads back to the schedule it was
   * assigned to, as the schedule lookup would return it without its tasks.
   */
  lemma {:induction false} AssignedTasksLeadBack(db: Db, sid: Id, batch: seq<TaskInput>, createOk: seq<bool>, j: nat)
    requires AssignTasksToSchedule(db, sid, batch, createOk, true, true).Success?
    requires j < |batch|
    ensures var (ids, db') := AssignTasksToSchedule(db, sid, batch, createOk, true, true).value;
      GetScheduleByTaskID(db', ids[j], true, true) == Success(Loaded(db, sid).(tasks := []))
  {
    var (ids, db') := AssignTasksToSchedule(db, sid, batch, createOk, true, true).value;
    assert db'.tasks[ids[j]].scheduleId == sid;
    assert db'.schedules == db.schedules;
  }

  /**
   * Overwrites a task's status, reason and completion instant, with no check
   * that they agree with each other. The statement fails as the environment
   * says. Otherwise a key with no row updates nothing and is not an error,
   * and a status no enum member collates equal to is refused when there is
   * a row to write it to.
   */
  function UpdateTaskStatus(db: Db, taskId: Id, status: string, reason: Option<string>, completedAt: Option<Time>,
                            ok: bool): (r: Result<Db, DbError>)
    ensures !ok ==> r == Failure(StoreFault)
    ensures ok && taskId !in db.tasks ==> r == Success(db)
    ensures taskId in db.tasks ==> (r.Success? <==> ok && Admits(TaskEnum, status))
    ensures ok && r.Failure? ==> r.error == EnumViolation
    ensures r.Success? ==> r.value.schedules == db.schedules && r.value.tasks.Keys == db.tasks.Keys
    ensures r.Success? && taskId in db.tasks ==>
      var before, after := db.tasks[taskId], r.value.tasks[taskId];
      && (forall k :: k in db.tasks && k != taskId ==> r.value.tasks[k] == db.tasks[k])
      && Selects(TaskEnum, status, TaskStatusName(after.status))
      && after.reason == reason
      && after.completedAt == completedAt
      && before.(status := after.status, reason := after.reason, completedAt := after.completedAt) == after
  {
    if !ok then Failure(StoreFault)
    else if taskId !in db.tasks then Success(db)
    else match EnumTaskStatus(status)
      case None => Failure(EnumViolation)
      case Some(s) =>
        Success(db.(tasks := db.tasks[taskId := db.tasks[taskId].(status := s, reason := reason, completedAt := completedAt)]))
  }

  /** A second status update overrides the first completely: the last write wins. */
  lemma {:induction false} LastStatusWins(db: Db, taskId: Id, s1: string, r1: Option<string>, c1: Option<Time>,
                                           s2: string, r2: Option<string>, c2: Option<Time>, ok: bool)
    requires UpdateTaskStatus(db, taskId, s1, r1, c1, true).Success?
    ensures UpdateTaskStatus(UpdateTaskStatus(db, taskId, s1, r1, c1, true).value, taskId, s2, r2, c2, ok)
         == UpdateTaskStatus(db, taskId, s2, r2, c2, ok)
  {
    var mid := UpdateTaskStatus(db, taskId, s1, r1, c1, true).value;
    if ok && taskId in db.tasks {
      match EnumTaskStatus(s2)
      case None =>
      case Some(s) =>
        assert mid.tasks[taskId := mid.tasks[taskId].(status := s, reason := r2, completedAt := c2)]
            == db.tasks[taskId := db.tasks[taskId].(status := s, reason := r2, completedAt := c2)];
    }
  }

  // ----- Cascade -----------------------------------------------------------

  /**
   * Removing a schedule row under the foreign key's `ON DELETE CASCADE`:
   * the schedule and every task naming it go; every other row stays.
   */
  function DeleteScheduleCascade(db: Db, sid: Id): (r: Db)
    ensures r.schedules.Keys == db.schedules.Keys - {sid}
    ensures forall k :: k in r.schedules ==> r.schedules[k] == db.schedules[k]
    ensures forall k :: k in r.tasks <==> k in db.tasks && db.tasks[k].scheduleId != sid
    ensures forall k :: k in r.tasks ==> r.tasks[k] == db.tasks[k]
  {
    Db(db.schedules - {sid}, map k | k in db.tasks && db.tasks[k].scheduleId != sid :: db.tasks[k])
  }

  // ----- Referential integrity ---------------------------------------------

  /** Every insert and save keeps every task pointing at an existing schedule. */
  lemma InsertsKeepConsistency(db: Db, t: TaskInput, ok: bool, id: Id)
    requires Consistent(db)
    ensures CreateTask(db, t, ok).Success? ==> Consistent(CreateTask(db, t, ok).value.1)
    ensures UpdateTask(db, id, t, ok).Success? ==> Consistent(UpdateTask(db, id, t, ok).value.1)
  {
  }

  /** A successful assignment keeps every task pointing at an existing schedule. */
  lemma {:induction false} AssignKeepsConsistency(db: Db, sid: Id, batch: seq<TaskInput>, createOk: seq<bool>)
    requires Consistent(db)
    requires AssignTasksToSchedule(db, sid, batch, createOk, true, true).Success?
    ensures Consistent(AssignTasksToSchedule(db, sid, batch, createOk, true, true).value.1)
  {
    var (ids, db') := AssignTasksToSchedule(db, sid, batch, createOk, true, true).value;
    forall k | k in db'.tasks
      ensures db'.tasks[k].scheduleId in db'.schedules
    {
      if k !in db.tasks {
        var j :| 0 <= j < |ids| && ids[j] == k;
      }
    }
  }

  /** Status updates, task deletes and the cascade keep every task pointing at an existing schedule. */
  lemma RemovalsKeepConsistency(db: Db, id: Id, sid: Id, status: string, reason: Option<string>, at: Option<Time>, ok: bool)
    requires Consistent(db)
    ensures UpdateTaskStatus(db, id, status, reason, at, ok).Success? ==>
              Consistent(UpdateTaskStatus(db, id, status, reason, at, ok).value)
    ensures DeleteTask(db, id, ok).Success? ==> Consistent(DeleteTask(db, id, ok).value)
    ensures Consistent(DeleteScheduleCascade(db, sid))
  {
  }
}

=== FILE: users.dfy ===
/**
 * The user service: registration with its email-uniqueness rule, and login
 * with its error collapsing.
 *
 * The users table is a map from primary key to row. Whether a statement
 * fails is chosen by the environment (`lookupOk`, `createOk`); the bcrypt
 * comparison is a predicate `matches(hash, password)` supplied by the
 * caller, true exactly when the comparison reports no error. Emails and
 * mobile numbers are compared as the database's collation compares them,
 * ignoring letter case.
 */
module UserService {
  import opened Wrappers
  import opened Ids
  import opened Models
  import opened Store
  import opened Collation

  type Users = map<Id, User>

  /** A user as the registration handler builds it, before it has a key. */
  datatype UserInput = UserInput(
    email: string,
    mobile: string,
    fullName: string,
    password: string,
    roleId: int)

  /** The keys of the rows whose email collates equal to `email`. */
  function WithEmail(users: Users, email: string): (r: set<Id>)
    ensures forall k :: k in r <==> k in users && SameText(users[k].email, email)
  {
    set k | k in users && SameText(users[k].email, email)
  }

  /**
   * The row `WHERE email = ? ... First()` finds: the one with the least
   * primary key among those whose email collates equal to `email`, if any.
   */
  function FirstWithEmail(users: Users, email: string): (r: Option<Id>)
    ensures r.None? <==> forall k :: k in users ==> !SameText(users[k].email, email)
    ensures r.Some? ==> r.value in users && SameText(users[r.value].email, email)
    ensures r.Some? ==> forall k :: k in users && SameText(users[k].email, email) ==> r.value <= k
  {
    var ks := WithEmail(users, email);
    if ks == {} then None else Some(Least(ks))
  }

  /**
   * No two users' emails collate equal, and no two users' mobile numbers do:
   * the table's unique indexes.
   */
  predicate UniqueContacts(users: Users)
  {
    forall j, k :: j in users && k in users && j != k ==>
      !SameText(users[j].email, users[k].email) && !SameText(users[j].mobile, users[k].mobile)
  }

  /** Some stored user's mobile number collates equal to `mobile`. */
  predicate MobileTaken(users: Users, mobile: string)
  {
    exists k :: k in users && SameText(users[k].mobile, mobile)
  }

  /** The row an insert stores: a zero role takes the column default. */
  function NewUser(id: Id, u: UserInput): User
  {
    User(id, u.email, u.mobile, u.fullName, u.password, if u.roleId == 0 then DefaultRoleId else u.roleId, None)
  }

  /**
   * Registers a user. When the email lookup finds a row, the ORM's
   * duplicated-key error is returned and nothing is inserted; only the email
   * is looked up. When the lookup finds nothing, or fails, the insert runs,
   * and the table's unique indexes refuse an email or mobile that collates
   * equal to a stored one with the driver's error. On success the new row's key is returned.
   */
  function RegisterUser(users: Users, u: UserInput, lookupOk: bool, createOk: bool): (r: Result<(int, Users), DbError>)
    ensures lookupOk && FirstWithEmail(users, u.email).Some? ==> r == Failure(DuplicatedKey)
    ensures r.Failure? && r.error == DuplicatedKey ==> FirstWithEmail(users, u.email).Some?
    ensures r.Success? <==>
      && createOk
      && FirstWithEmail(users, u.email).None?
      && !MobileTaken(users, u.mobile)
      && NextId(users.Keys).Some?
    ensures lookupOk && FirstWithEmail(users, u.email).None? && createOk && MobileTaken(users, u.mobile) ==>
      r == Failure(UniqueViolation)
    ensures r.Success? ==>
      var (id, users') := r.value;
      && id !in users
      && id in users'
      && users' == users[id := users'[id]]
      && users'[id].email == u.email
      && users'[id].mobile == u.mobile
      && users'[id].fullName == u.fullName
      && users'[id].password == u.password
      && users'[id].roleId == (if u.roleId == 0 then RoleCaregiver else u.roleId)
      && users'[id].refreshToken.None?
  {
    if lookupOk && FirstWithEmail(users, u.email).Some? then Failure(DuplicatedKey)
    else if !createOk then Failure(StoreFault)
    else if FirstWithEmail(users, u.email).Some? || MobileTaken(users, u.mobile) then Failure(UniqueViolation)
    else match NextId(users.Keys)
      case None => Failure(IdsExhausted)
      case Some(id) => Success((id, users[id := NewUser(id, u)]))
  }

  /** Registration keeps emails and mobile numbers unique. */
  lemma {:induction false} RegisterKeepsContactsUnique(users: Users, u: UserInput, lookupOk: bool, createOk: bool)
    requires UniqueContacts(users)
    requires RegisterUser(users, u, lookupOk, createOk).Success?
    ensures UniqueContacts(RegisterUser(users, u, lookupOk, createOk).value.1)
  {
    var (id, users') := RegisterUser(users, u, lookupOk, createOk).value;
    forall j, k | j in users' && k in users' && j != k
      ensures !SameText(users'[j].email, users'[k].email) && !SameText(users'[j].mobile, users'[k].mobile)
    {
      if j == id {
        assert k in users;
      } else if k == id {
        assert j in users;
      }
    }
  }

  /**
   * The mobile number is not looked up: a taken mobile with a fresh email
   * reaches the insert and fails there with the driver's error, not with the
   * duplicated-key error the email check returns.
   */
  lemma MobileIsNotLookedUp(users: Users, u: UserInput)
    requires FirstWithEmail(users, u.email).None? && MobileTaken(users, u.mobile)
    ensures RegisterUser(users, u, true, true) == Failure(UniqueViolation)
    ensures RegisterUser(users, u, true, true) != Failure(DuplicatedKey)
  {
  }

  // ----- Login -------------------------------------------------------------

  /** Login's errors: one message for every credential failure, or the store's own error. */
  datatype LoginError = InvalidCredentials | LookupFailed(cause: DbError)

  /**
   * Logs a user in by email and password. The email is found whatever its
   * letter case. A failed lookup other than not-found is passed on as it is;
   * an unknown email and a wrong password both give the same
   * invalid-credentials error.
   */
  function LoginUser(users: Users, email: string, password: string, lookupOk: bool,
                     matches: (string, string) -> bool): (r: Result<User, LoginError>)
    ensures !lookupOk ==> r == Failure(LookupFailed(StoreFault))
    ensures lookupOk && FirstWithEmail(users, email).None? ==> r == Failure(InvalidCredentials)
    ensures r.Success? <==>
      lookupOk && FirstWithEmail(users, email).Some? && matches(users[FirstWithEmail(users, email).value].password, password)
    ensures r.Success? ==> r.value == users[FirstWithEmail(users, email).value] && SameText(r.value.email, email)
    ensures lookupOk && r.Failure? ==> r.error == InvalidCredentials
  {
    if !lookupOk then Failure(LookupFailed(StoreFault))
    else match FirstWithEmail(users, email)
      case None => Failure(InvalidCredentials)
      case Some(id) =>
        if matches(users[id].password, password) then Success(users[id]) else Failure(InvalidCredentials)
  }

  /** Login does not depend on the letter case of the email it is given. */
  lemma {:induction false} LoginIgnoresEmailCase(users: Users, e1: string, e2: string, password: string, lookupOk: bool,
                                                  matches: (string, string) -> bool)
    requires SameText(e1, e2)
    ensures LoginUser(users, e1, password, lookupOk, matches) == LoginUser(users, e2, password, lookupOk, matches)
  {
    assert WithEmail(users, e1) == WithEmail(users, e2);
  }

  /**
   * Registration does not depend on the letter case of the email either: an
   * email that differs from a stored one only in case is a duplicate.
   */
  lemma {:induction false} RegisterIgnoresEmailCase(users: Users, u: UserInput, email: string, lookupOk: bool, createOk: bool)
    requires SameText(u.email, email)
    ensures RegisterUser(users, u, lookupOk, createOk).Failure?
        <==> RegisterUser(users, u.(email := email), lookupOk, createOk).Failure?
    ensures RegisterUser(users, u, lookupOk, createOk).Failure? ==>
      RegisterUser(users, u, lookupOk, createOk).error == RegisterUser(users, u.(email := email), lookupOk, createOk).error
  {
    assert WithEmail(users, u.email) == WithEmail(users, email);
  }

  /** With `alice@x.com` stored, `Alice@x.com` is refused as a duplicate and logs in as that user. */
  lemma CaseVariantEmail(users: Users, id: Id, u: UserInput, matches: (string, string) -> bool)
    requires users == map[id := User(id, "alice@x.com", "0700", "Alice", "hash", RoleCaregiver, None)]
    requires u.email == "Alice@x.com" && matches("hash", u.password)
    ensures RegisterUser(users, u, true, true) == Failure(DuplicatedKey)
    ensures LoginUser(users, "Alice@x.com", u.password, true, matches) == Success(users[id])
  {
    SameTextPointwise("alice@x.com", "Alice@x.com");
    assert id in WithEmail(users, "Alice@x.com");
  }

  /**
   * The two credential failures cannot be told apart: for an unknown email
   * and for a known email with a wrong password the result is the same.
   */
  lemma CredentialFailuresCollapse(users: Users, unknown: string, known: string, wrong: string,
                                   matches: (string, string) -> bool)
    requires FirstWithEmail(users, unknown).None?
    requires FirstWithEmail(users, known).Some?
    requires !matches(users[FirstWithEmail(users, known).value].password, wrong)
    ensures LoginUser(users, unknown, wrong, true, matches) == LoginUser(users, known, wrong, true, matches)
  {
  }

  /**
   * A user just registered can log in with a password the stored hash
   * matches, and gets back the row registration stored.
   */
  lemma {:induction false} LoginAfterRegister(users: Users, u: UserInput, lookupOk: bool, createOk: bool,
                                               password: string, matches: (string, string) -> bool)
    requires RegisterUser(users, u, lookupOk, createOk).Success?
    requires matches(u.password, password)
    ensures var (id, users') := RegisterUser(users, u, lookupOk, createOk).value;
      LoginUser(users', u.email, password, true, matches) == Success(users'[id])
  {
    var (id, users') := RegisterUser(users, u, lookupOk, createOk).value;
    var found := FirstWithEmail(users', u.email);
    assert users'[id].email == u.email;
    assert found.Some?;
    assert forall k :: k in users' && k != id ==> k in users;
  }
}

=== FILE: wrappers.dfy ===
/** Failure-compatible wrappers shared by every module of the model. */
module Wrappers {

  /** An optional value: a nullable column, a nil pointer field, or an absent lookup. */
  datatype Option<+T> = None | Some(value: T)

  /** The value of a Go `(value, error)` pair: either the value or the error. */
  datatype Result<+T, +E> = Success(value: T) | Failure(error: E)
}
